=== FILE: README.md ===
# MiniC front-end core in Dafny

This project models three self-contained pieces of the MiniC front-end and proves
properties of each.

**The AST and its indented renderer** (`ast.java`, with the parallel `AST.py`):
- Every node kind is a datatype variant.
- Each of the four enums is a Dafny enum.
- The `ASTIfNode` constructor's else-default is `Ast.MakeIf`.
- `print(n)` becomes the pure function `AstRender.Render(d, node, n)`, which returns the printed lines as a `seq<string>`.
- The dialect `d` (`Java` or `Python`) selects the four spots where the two printers differ at a depth n ≥ 0:
  - Root section headers: Java prints them when a list is empty, Python when it is non-empty.
  - Bool spelling: `true` against `True`.
  - Float spelling: Java's `%s` of a `float` against Python's `str` of a `float`, for example `1.0E7` against `10000000.0`. A `FloatLiteral` carries both texts.
  - The `extern` spacing in a function declaration: `"extern "` plus a space in Java, `"extern"` plus a space in Python.
- Internally a printed line is a `Line(depth, text)`, and `Spell` turns it into `depth` copies of `|   ` followed by the text. The layout lemmas (`AstRenderShape`, `AstRenderText`) reason about depths. The text lemmas then carry the result over to strings.
- The statement, block, declaration and function renderers count their lines in their contracts, against reference counts that do not depend on the dialect (`StmtLines`, `BlockLines`, ...). Expressions are counted by the lemma `ExprLineCount`. A root's count adds `HeaderCount(d, root)`, which does depend on the dialect.
- `AstDecode` is a reader that parses an expression's printed lines back into the expression. A printout shows only its own dialect's spelling of a float, so the reader returns `Shown(d, e)`: the expression with that spelling in both slots. `AstRoundTrip` proves it a left inverse up to `Shown`. Printing is therefore injective on expressions whose floats both printers spell alike, and otherwise up to `Shown`.
- `AstDialects` compares the two dialects.

**The declaration checker** (`MiniCWalker.java`):
- The ANTLR listener is replaced by a sequence of events: `FuncEnter`, `Param(x)`, `LocalDecl(x)`, `Expr(Some(x) | None)`, `ErrorNode`.
- `Walker.Walk` is a fold of `Walker.Step` over the events. The state is the name table (a set, since only `true` is ever stored), the diagnostics printed so far, and `hasError`.
- A table event that arrives before any function was entered dereferences the still-null `varDeclared` in the source. The model returns `None` for that crash rather than excluding it by a precondition.
- `Walker.WalkMatchesDeclarative` relates the fold to a declarative reading over the whole event history. `Walker.Listen` is the callback-per-event loop, proved equal to the fold.

**The parse-tree printer** (`TreeUtils.java`):
- `TreeUtils.Serialize` is `process` over a labelled rose tree, with the static `level` passed as a parameter.
- `TreeUtils.Process` is the imperative version. It threads `level` through and is proved to restore it.
- The line terminator and ANTLR's `escapeWhitespace` are parameters.

Notes on the source's behaviour:
- **Scopes.** The table exists only inside a function. It is reset by `enterFunc_decl` and holds no globals, so a global used inside a function is reported as undeclared.
- **Crashes.** A table event before the first function is a crash (`None`), not a recoverable diagnostic.
- **Normalisation.** The regular-expression pass of `outputTree` is a parameter, so nothing is claimed about which blank lines it removes.
- **Name uses.** Only `enterExpr` looks a name up, and only when its context has a `NAME` token. No other callback consults the table for a use.

## Model

| member | source | states |
|---|---|---|
| Ast.MakeIf | ast.java:417-424 | the If node keeps the condition and the if-body; a given else-block is stored as is, and an absent one becomes a Block with no statements |
| AstRender.Indent | ast.java:47 | the indent for depth n is 4·n characters long (n copies of the four-character unit) |
| AstRenderText.RenderLayout | ast.java:47-445 | for every node kind and both dialects, every printed line starts with n indent units; the first line opens the node (a capital letter right after them); in a statement or a function definition no later line opens a node at depth n |
| AstRenderShape.NodeLinesShape | AST.py:56-365 | a node's lines: the first is a header at depth n, and every line sits at depth n or deeper; for a function or a statement no later line is a header at depth n, so the rest are (Kind) labels at n or children's lines deeper down (a root's section headers sit at n, see RootShape) |
| AstRenderShape.RootShape | ast.java:148-168 | a root prints "Root." first and all its section headers and items at depth n or deeper, in either dialect |
| AstRenderShape.StmtShape | AST.py:85-365 | every statement's printed lines form one node at depth n: header first, every other line deeper or a label |
| AstRenderShape.ExprShape | ast.java:230-367 | every expression's printed lines form one node at depth n |
| AstRenderFacts.BlockRendersEachStatement | ast.java:93-98 | a block prints "Block." at depth n and then exactly the statements' renderings at n+1 concatenated in list order; its line count is 1 plus the sum of theirs |
| AstRenderFacts.BlockStatementAt | AST.py:96-99 | the i-th statement's rendering appears contiguously in the block's lines, right after the lines of the statements before it |
| AstRenderFacts.StmtsAreConcatenated | ast.java:95-97 | a statement list prints as the concatenation of the statements' renderings, in order |
| AstRenderFacts.IfWithoutElseRendersEmptyBlock | ast.java:417-433 | an If built without an else prints, as its last two lines, "(If) else_body =" at n and "Block." at n+1 |
| AstRenderFacts.IfRendersElseBlockLast | AST.py:356-365 | an If prints its else-block (given, or the empty default) as its last lines, right after the "(If) else_body =" label |
| AstRenderFacts.CallRendersParameter | ast.java:362-367 | for any callee name, a call prints more than one line exactly when the parameter is present: then the header "Call. name, parameter =" followed by exactly the parameter's lines at n+1, otherwise the single line "Call. name" |
| AstRenderFacts.CallParameterShown | ast.java:362-367 | a call prints more than one line exactly when the parameter is present, and its header ends in ", parameter =" exactly then; the further lines are the parameter at n+1; without one it is the single line "Call. name" |
| AstRenderFacts.RetExpressionShown | ast.java:380-385 | a return prints more than one line exactly when it has an expression, and its header ends in " expression =" exactly then; the further lines are the expression at n+1 |
| AstRenderFacts.AsgnRendersRhs | AST.py:85-87 | an assignment prints its header line and then exactly the lines of its right-hand side at depth n+1, nothing else |
| AstRenderFacts.FuncDefRendersBody | AST.py:123-127 | a function definition prints its signature line and then exactly the lines of its body block at depth n+1, nothing else |
| AstRenderFacts.RExprOperandsInOrder | ast.java:296-302 | a relational expression prints header, "(RExpr) LHS =", the lhs lines at n+1, "(RExpr) RHS =", then the rhs lines at n+1 |
| AstRenderFacts.BExprOperandsInOrder | ast.java:321-327 | a binary expression prints header, "(BExpr) LHS =", the lhs lines at n+1, "(BExpr) RHS =", then the rhs lines at n+1 |
| AstRenderFacts.VarDeclExternShown | ast.java:187-189 | a variable declaration prints one line at depth n whose text starts "VarDecl. extern " exactly when the declaration is extern |
| AstRenderFacts.RootSectionHeaders | ast.java:148-168 | each of "Assignments:", "Declarations:", "Functions:" appears among the root's lines exactly when the dialect prints that header for the list (Java: empty list, Python: non-empty list) |
| AstRenderFacts.AssignmentsHeaderAt | AST.py:148-153 | wherever "Assignments:" appears it is the line right after "Root." |
| AstRenderFacts.DeclarationsHeaderAt | AST.py:154-157 | wherever "Declarations:" appears it comes right after the assignments section |
| AstRenderFacts.FunctionsHeaderAt | AST.py:158-161 | wherever "Functions:" appears it comes right after the declarations section |
| AstRenderFacts.RootSectionOrder | ast.java:148-168 | if all three section headers appear, they appear in the order assignments, declarations, functions, whatever the field order of the node |
| AstRender.RenderExpr | ast.java:230-367 | every expression prints at least one line, and the first is its own header at depth n: the kind's name with its value, operator or callee |
| AstRender.ExprLineCount | ast.java:296-367 | an expression prints one line per node plus two operand labels per relational or binary node; a variable, literal or call without a parameter prints exactly one line |
| AstRender.RenderDecl | ast.java:187-216 | a variable or function declaration prints exactly one line, a node header at depth n |
| AstRender.RenderAsgn | ast.java:77-80 | an assignment prints "Asgn. lhs =" first, and one line more than its right-hand side prints |
| AstRender.RenderBlock | ast.java:93-98 | a block prints "Block." first and one line more than its statements print together, in either dialect |
| AstRender.RenderStmt | ast.java:380-445 | a statement prints exactly the number of lines its structure dictates (the reference count StmtLines), the same in both dialects |
| AstRender.RenderWhile | ast.java:401-407 | a while loop prints "While." first and three lines more than its condition and body print |
| AstRender.RenderIf | ast.java:426-434 | an if statement prints "If." first and four lines more than its condition and both branches print |
| AstRender.RenderFuncDef | ast.java:123-126 | a function definition prints its signature first and "Block." at depth n+1 second, one line more than its body prints |
| AstRender.RenderRoot | ast.java:148-168 | a root prints "Root." first; then one line per section header the dialect prints, plus the lines of its assignments, declarations (one each) and functions |
| AstRender.Render | ast.java:42-47 | the printout of a statement, function or root has exactly the reference number of lines for that node in that dialect |
| AstDialects.ExprDialectsAgree | AST.py:234-245 | the Java and Python renderings of an expression are equal exactly when it contains no Boolean literal and no float literal whose two spellings differ |
| AstDialects.DeclDialectsAgree | AST.py:200-203 | the two renderings of a declaration are equal exactly when it is not an extern function declaration |
| AstDialects.StmtDialectsAgree | AST.py:319-365 | the two renderings of a statement are equal exactly when it contains no Boolean literal, no float literal whose two spellings differ and no extern function declaration |
| AstDialects.BlockDialectsAgree | AST.py:96-99 | the two renderings of a block are equal exactly when none of its statements differs |
| AstDialects.RootDialectsDiffer | AST.py:148-161 | for each section exactly one of the two dialects prints its header, so a root never prints alike in the two |
| AstDecode.ROpNameRoundTrip | ast.java:8-16 | a relational operator prints as its member name, from which it is read back |
| AstDecode.BOpNameRoundTrip | ast.java:18-24 | a binary operator prints as its member name, from which it is read back |
| AstDecode.UOpNameRoundTrip | ast.java:26-30 | a unary operator prints as its member name, from which it is read back |
| AstDecode.DataTypeNameRoundTrip | AST.py:17-19 | a data type prints as its member name, which has no space or parenthesis and is read back |
| AstDecode.ReadLinesOf | AST.py:13 | reading the indent units back off printed lines recovers every line's depth and text |
| AstRoundTrip.ExprRoundTrip | ast.java:230-367 | decoding an expression's printed lines at depth n gives back the expression as the printout shows it (Shown: each float with the dialect's spelling in both slots), in both dialects |
| AstRoundTrip.PrintedExprRoundTrip | AST.py:207-310 | decoding the printed text of an expression statement gives back the expression as that dialect's printout shows it |
| AstRoundTrip.PrintedExprInjective | ast.java:230-367 | two expression statements print the same text exactly when they agree on everything the dialect prints (equal under Shown) |
| AstRoundTrip.AgreeingExprInjective | AST.py:207-310 | among expressions whose floats both printers spell alike, two expression statements print the same text exactly when the expressions are equal |
| AstRoundTrip.ShownPrintsAlike | ast.java:260-262 | replacing each float's other spelling by the dialect's own changes nothing in the printout |
| AstRoundTrip.ShownIsIdentity | AST.py:234-235 | the reader gives back the expression itself (Shown(d, e) == e) exactly when every float in it has one spelling for both printers |
| Walker.Walk | MiniCWalker.java:8-63 | a walk that does not crash prints at most one diagnostic per callback, and ends with hasError set exactly when an error node was visited |
| Walker.Step | MiniCWalker.java:15-63 | one callback crashes exactly when it needs the table before any function was entered; otherwise only function entry can drop names, diagnostics only grow and by at most one, and hasError is set afterwards exactly when it was set before or the event is an error node |
| Walker.FuncEnterResets | MiniCWalker.java:15-18 | entering a function starts an empty table and leaves diagnostics and hasError alone |
| Walker.ParamInserts | MiniCWalker.java:19-27 | a parameter is inserted into the table and never reports anything |
| Walker.LocalDeclChecks | MiniCWalker.java:28-40 | a local declaration of a known name reports one multiple-declaration diagnostic and leaves the table; of a fresh name it inserts the name and reports nothing |
| Walker.ExprChecks | MiniCWalker.java:42-60 | an expression never changes the table; with no name it changes nothing; with an unknown name it reports one undeclared-variable diagnostic, with a known one nothing |
| Walker.ErrorNodeFlags | MiniCWalker.java:61-63 | an error node sets hasError and changes nothing else |
| Walker.WalkMatchesDeclarative | MiniCWalker.java:8-63 | the fold crashes exactly when a table event precedes every function entry; otherwise the table exists exactly once a function was entered and holds the names declared since the last function entry, the diagnostics are the per-event reports in order, and hasError holds exactly when an error node occurred |
| Walker.DeclaredGrows | MiniCWalker.java:17-38 | within one function the table only grows |
| Walker.NewFunctionForgetsNames | MiniCWalker.java:15-18 | after a function entry the table holds only what that function's own events declared |
| Walker.SameLocalInTwoFunctions | MiniCWalker.java:28-40 | a local name declared in an earlier function is not reported as a multiple declaration in a later one |
| Walker.ErrorIsSticky | MiniCWalker.java:61-63 | once hasError is set no later event clears it |
| Walker.CrashesPrefix | MiniCWalker.java:8 | a history whose prefix already crashed crashes |
| Walker.Listen | MiniCWalker.java:15-63 | the callback-per-event loop reports a crash exactly when the declarative reading does, and otherwise ends with its table, diagnostics and flag |
| Walker.Message | MiniCWalker.java:34-55 | each diagnostic prints as one text that ends with the variable's name followed by a line break |
| Walker.ParseMessageOfMessage | MiniCWalker.java:34 | every diagnostic is read back from its printed message |
| Walker.MessageInjective | MiniCWalker.java:55 | two diagnostics print the same message exactly when they are equal |
| TreeUtils.Lead | TreeUtils.java:40-49 | lead of a non-positive level is empty; of a positive level it starts with the line terminator and is two characters longer per level |
| TreeUtils.BuildLead | TreeUtils.java:40-49 | the loop builds lead(level), whose characters after the terminator are all spaces |
| TreeUtils.Process | TreeUtils.java:25-38 | process returns the serialisation of the tree and leaves level as it found it |
| TreeUtils.ProcessChildren | TreeUtils.java:32-34 | the children are processed in index order, their serialisations concatenated, and level is restored |
| TreeUtils.SerializeAllAppend | TreeUtils.java:32-34 | serialising two runs of siblings one after the other is the concatenation of their serialisations |
| TreeUtils.InteriorText | TreeUtils.java:27-37 | an interior node's text is exactly lead(level), its escaped text and a space, its children serialised in order at level+1, then lead(level) |
| TreeUtils.InteriorLayout | TreeUtils.java:27-37 | an interior node's text starts with lead(level), its escaped text and a space, then the children before i and child i at level+1, and ends with lead(level) |
| TreeUtils.RootStartsWithItsText | TreeUtils.java:19-22 | at level 0 the tree's text starts with the root's escaped text, with no lead before it |
| TreeUtils.NestedInteriorOpensLine | TreeUtils.java:40-47 | an interior node below the root starts on a new line indented by two spaces per level |
| TreeUtils.LeafIsEscapedText | TreeUtils.java:26 | a childless node is exactly its escaped text, with nothing before or after |
| Strings.ParseIntToString | ast.java:245-247 | the decimal spelling of an integer literal is read back to the same integer |
| Strings.IntToStringInjective | AST.py:224-225 | two integers with the same decimal spelling are equal |

## Left out

- The `MiniC.java` driver is not part of this model: lexer and parser construction, file input and standard output.
- `MiniCErrorListener.java` is not part of this model. It only writes to the error stream and sets a flag.
- The `enterProgram`, `exitProgram` and `enterError` callbacks are left out. They only print fixed messages.
- Depths are natural numbers. For `print(n)` with n < 0, Java's `String.repeat` throws `IllegalArgumentException`, while Python's string repetition gives no indent, so the node prints unindented. Neither path is modelled, and the printers' own calls never pass a negative depth.
- Standard output is not modelled: `print(n)` returns lines instead of writing them, and the line terminator is not part of a line.
- ANTLR is replaced by inputs. Events stand for the listener callbacks, and `Option<string>` stands for `ctx.NAME()`, its exception and the `"Nothing"` sentinel. The sentinel is compared by reference, so a variable that is itself named `Nothing` is still looked up, as `Some("Nothing")`. Node texts are plain strings, and `escapeWhitespace` is a function parameter.
- The line separator is a parameter, not the platform's.
- `TreeUtils.OutputTree`: the two regular-expression replacements are an uninterpreted `normalize` parameter. Java's regex semantics are not modelled, so nothing is claimed about blank lines.
- Floating-point values are not modelled. A float literal carries the two texts the printers make of its value, and how Java's `%s` and Python's `str` compute them from the bits is not modelled.
- `Ast.IntLiteral` holds an unbounded integer. Java's `int` is 32-bit, but its literal values print the same decimal spelling, so the renderer does not depend on the width.
- `TreeUtils.Serialize` takes `level` as an unbounded integer, so an overflow of the static `int` counter after 2^31 nested levels is not modelled.
- The reader in `AstDecode` covers expressions only. Statements, declarations and roots are compared through the dialect and layout lemmas instead.
- AstRenderFacts.CallParameterShown: requires that the callee name contain no comma. A name with `", parameter ="` in it could otherwise fake the suffix; MiniC identifiers never contain one. The facts that hold for every name are stated without that requirement by `AstRenderFacts.CallRendersParameter`.
- AstRenderFacts.VarDeclExternShown: states that the line starts with `"VarDecl. extern "` exactly for extern declarations, rather than that `"extern "` occurs nowhere in a non-extern line. A variable name may itself contain that text.

=== FILE: ast.dfy ===
/** The abstract syntax tree of a MiniC compilation unit, as the Java
    (`ast.java`) and Python (`AST.py`) libraries define it: four enumerations
    and one variant per concrete node class.

    The class hierarchy of the sources becomes a family of datatypes:
    an expression (`ASTExprNode`) and a declaration (`ASTDeclNode`) may each
    stand as a statement, so `Stmt` wraps them; `Block`, `FuncDef` and `Root`
    are their own types because other nodes hold them by that type. Optional
    references (`Optional<...>` in Java, `None` in Python) become `Option`. */
module Ast {
  import opened Wrappers

  /** Relational operators (`ASTROpType`). */
  datatype ROpType = LT | GT | LEQ | GEQ | EQ | NEQ

  /** Binary operators (`ASTBOpType`). */
  datatype BOpType = ADD | SUB | DIV | MUL

  /** Unary operators (`ASTUOpType`). */
  datatype UOpType = POS | NEG

  /** The types of MiniC (`ASTDataType`). */
  datatype DataType = VOID_T | INT_T | FLOAT_T | BOOL_T

  /** Expressions. The model has no floating point, so a float literal is
      carried as the two texts the printers make of its value: Java's `%s`
      of a `float` (`1.0E7`) and Python's `str` of a `float`
      (`10000000.0`). */
  datatype Expr =
    | Var(name: string)
    | IntLiteral(value: int)
    | FloatLiteral(javaText: string, pythonText: string)
    | BoolLiteral(truth: bool)
    | RExpr(lhs: Expr, rhs: Expr, rop: ROpType)
    | BExpr(lhs: Expr, rhs: Expr, bop: BOpType)
    | UExpr(operand: Expr, uop: UOpType)
    | Call(callee: string, param: Option<Expr>)

  /** Global or local declarations. A function declaration keeps only the
      parameter's type: C prototypes are positional. */
  datatype Decl =
    | VarDecl(isExtern: bool, dataType: DataType, name: string)
    | FuncDecl(isExtern: bool, returnType: DataType, name: string, paramType: DataType)

  /** An assignment `lhs = rhs;`. */
  datatype Asgn = Asgn(lhs: string, rhs: Expr)

  /** A brace-delimited statement list. */
  datatype Block = Block(stmts: seq<Stmt>)

  /** Anything that can sit on its own in a block. The else-branch of an
      `If` is never absent: see `MakeIf`. */
  datatype Stmt =
    | AsgnStmt(asgn: Asgn)
    | BlockStmt(block: Block)
    | DeclStmt(decl: Decl)
    | ExprStmt(expr: Expr)
    | Ret(result: Option<Expr>)
    | While(cond: Expr, body: Block)
    | If(cond: Expr, ifBody: Block, elseBody: Block)
    | EmptyStmt

  /** A function definition; `paramName` is "" when there is no parameter. */
  datatype FuncDef = FuncDef(returnType: DataType, name: string, paramType: DataType,
                             paramName: string, body: Block)

  /** One compilation unit. The field order is the constructor's; rendering
      uses its own order (assignments, declarations, functions). */
  datatype Root = Root(decls: seq<Decl>, asgns: seq<Asgn>, funcs: seq<FuncDef>)

  /** Any node that has a `print` method of its own. */
  datatype Node =
    | RootNode(root: Root)
    | FuncDefNode(func: FuncDef)
    | StmtNode(stmt: Stmt)

  /** The `ASTIfNode` constructor: an absent else-branch is stored as an
      empty block, never as a missing reference. */
  function MakeIf(cond: Expr, ifBody: Block, elseBody: Option<Block>): (s: Stmt)
    ensures s.If? && s.cond == cond && s.ifBody == ifBody
    ensures elseBody.Some? ==> s.elseBody == elseBody.value
    ensures elseBody.None? ==> s.elseBody.stmts == []
  {
    If(cond, ifBody, if elseBody.Some? then elseBody.value else Block([]))
  }
}

=== FILE: ast_decode.dfy ===
/** A reader for the renderer's output: it rebuilds a node from the lines
    `print(n)` writes for it. Reading back the rendering of any node gives
    the node again, so the rendering loses nothing: two different nodes
    never print the same lines.

    The reader relies only on what the layout guarantees: a node's header
    sits at its depth and starts with its kind's name up to the first `.`;
    children sit one level deeper; labels and section headers sit at the
    node's own depth. */
module AstDecode {
  import opened Wrappers
  import opened Strings
  import opened Ast
  import opened AstRender
  import opened AstRenderShape
  import opened AstRenderText

  // ---------------------------------------------------------------------
  // Enumeration names

  function ROpFromName(s: string): Option<ROpType> {
    if s == "LT" then Some(LT) else if s == "GT" then Some(GT)
    else if s == "LEQ" then Some(LEQ) else if s == "GEQ" then Some(GEQ)
    else if s == "EQ" then Some(EQ) else if s == "NEQ" then Some(NEQ)
    else None
  }

  function BOpFromName(s: string): Option<BOpType> {
    if s == "ADD" then Some(ADD) else if s == "SUB" then Some(SUB)
    else if s == "DIV" then Some(DIV) else if s == "MUL" then Some(MUL)
    else None
  }

  function UOpFromName(s: string): Option<UOpType> {
    if s == "POS" then Some(POS) else if s == "NEG" then Some(NEG) else None
  }

  function DataTypeFromName(s: string): Option<DataType> {
    if s == "VOID_T" then Some(VOID_T) else if s == "INT_T" then Some(INT_T)
    else if s == "FLOAT_T" then Some(FLOAT_T) else if s == "BOOL_T" then Some(BOOL_T)
    else None
  }

  /** The kinds of expression, by the name their header starts with. */
  datatype ExprTag = VarTag | IntTag | FloatTag | BoolTag | RExprTag | BExprTag | UExprTag | CallTag

  function ExprTagName(t: ExprTag): string {
    match t
    case VarTag => "Var"
    case IntTag => "IntLiteral"
    case FloatTag => "FloatLiteral"
    case BoolTag => "BoolLiteral"
    case RExprTag => "RExpr"
    case BExprTag => "BExpr"
    case UExprTag => "UExpr"
    case CallTag => "Call"
  }

  function ExprTagFromName(s: string): Option<ExprTag> {
    if s == "Var" then Some(VarTag) else if s == "IntLiteral" then Some(IntTag)
    else if s == "FloatLiteral" then Some(FloatTag) else if s == "BoolLiteral" then Some(BoolTag)
    else if s == "RExpr" then Some(RExprTag) else if s == "BExpr" then Some(BExprTag)
    else if s == "UExpr" then Some(UExprTag) else if s == "Call" then Some(CallTag)
    else None
  }

  lemma ExprTagRoundTrip(t: ExprTag)
    ensures ExprTagFromName(ExprTagName(t)) == Some(t)
    ensures '.' !in ExprTagName(t)
  {
  }

  /** Each enumeration prints as its member's name, and reading the name
      back gives the member: different members never print alike. */
  lemma ROpNameRoundTrip(op: ROpType)
    ensures ROpFromName(ROpName(op)) == Some(op)
  {
  }

  lemma BOpNameRoundTrip(op: BOpType)
    ensures BOpFromName(BOpName(op)) == Some(op)
  {
  }

  lemma UOpNameRoundTrip(op: UOpType)
    ensures UOpFromName(UOpName(op)) == Some(op)
  {
  }

  /** A type's name is one word, so it can be cut out of a declaration's
      header at the next space or parenthesis. */
  lemma DataTypeNameRoundTrip(t: DataType)
    ensures DataTypeFromName(DataTypeName(t)) == Some(t)
    ensures ' ' !in DataTypeName(t) && '(' !in DataTypeName(t)
  {
  }

  // ---------------------------------------------------------------------
  // Lines

  /** The line a printed string shows: one level of depth per leading
      `|   `, and the rest as its text. */
  function ReadLine(s: string): Line
    decreases |s|
  {
    if IndentStr <= s then
      var l := ReadLine(s[|IndentStr|..]);
      Line(l.depth + 1, l.text)
    else Line(0, s)
  }

  /** Reading a printed plain line gives back its depth and its text. */
  lemma {:induction false} ReadLineOf(l: Line)
    requires Plain(l)
    ensures ReadLine(Spell(l)) == l
    decreases l.depth
  {
    if l.depth == 0 {
      ReadText(l.text);
    } else {
      var up := Line(l.depth - 1, l.text);
      ReadLineOf(up);
      ReadIndent(Spell(up));
      assert Spell(l) == IndentStr + Spell(up);
    }
  }

  /** A text that does not start with a bar is read at depth zero. */
  lemma ReadText(text: string)
    requires |text| > 0 && text[0] != '|'
    ensures ReadLine(text) == Line(0, text)
  {
    assert text[0] != IndentStr[0];
  }

  /** One more leading `|   ` is one more level of depth. */
  lemma ReadIndent(s: string)
    ensures ReadLine(IndentStr + s) == Line(ReadLine(s).depth + 1, ReadLine(s).text)
  {
    assert (IndentStr + s)[|IndentStr|..] == s;
  }

  function ReadLines(r: seq<string>): (lines: seq<Line>)
    ensures |lines| == |r|
  {
    seq(|r|, i requires 0 <= i < |r| => ReadLine(r[i]))
  }

  /** Reading printed plain lines gives back the lines. */
  lemma ReadLinesOf(lines: seq<Line>, n: nat)
    requires Indented(lines, n)
    ensures ReadLines(Spelled(lines)) == lines
  {
    forall i | 0 <= i < |lines|
      ensures ReadLines(Spelled(lines))[i] == lines[i]
    {
      IndentedAt(lines, n, i);
      ReadLineOf(lines[i]);
    }
  }

  /** The header of a node at depth `n`: its text, cut at the first `.` into
      the kind's name and the rest. */
  function ReadHeader(line: Line, n: nat): Option<(string, string)> {
    if line.depth != n then None else SplitFirst(line.text, '.')
  }

  lemma ReadHeaderOf(n: nat, kind: string, rest: string)
    requires '.' !in kind
    ensures ReadHeader(Line(n, kind + "." + rest), n) == Some((kind, rest))
  {
    SplitFirstOf(kind, '.', rest);
  }

  /** How many leading lines lie at depth `m` or deeper. */
  function Span(lines: seq<Line>, m: nat): (k: nat)
    ensures k <= |lines|
  {
    if |lines| == 0 || lines[0].depth < m then 0
    else 1 + Span(lines[1..], m)
  }

  /** A block of deeper lines ends where the first shallower line starts. */
  lemma {:induction false} SpanOf(a: seq<Line>, b: seq<Line>, m: nat)
    requires Indented(a, m)
    requires |b| > 0 && b[0].depth < m
    ensures Span(a + b, m) == |a|
    decreases |a|
  {
    if |a| == 0 {
      assert a + b == b;
    } else {
      assert (a + b)[0] == a[0];
      assert (a + b)[1..] == a[1..] + b;
      SpanOf(a[1..], b, m);
    }
  }

  // ---------------------------------------------------------------------
  // Expressions

  function DecodeExpr(d: Dialect, lines: seq<Line>, n: nat): Option<Expr>
    decreases |lines|, 2
  {
    if |lines| == 0 then None
    else
      var header :- ReadHeader(lines[0], n);
      var tag :- ExprTagFromName(header.0);
      var arg :- StripPrefix(" ", header.1);
      DecodeKind(d, tag, arg, lines[1..], n)
  }

  /** What a printout in dialect `d` shows of an expression: everything,
      except that a float literal carries the dialect's own spelling in
      both places, the other printer's being nowhere on the page. */
  function Shown(d: Dialect, e: Expr): Expr {
    match e
    case FloatLiteral(j, p) => FloatLiteral(FloatText(d, j, p), FloatText(d, j, p))
    case RExpr(lhs, rhs, op) => RExpr(Shown(d, lhs), Shown(d, rhs), op)
    case BExpr(lhs, rhs, op) => BExpr(Shown(d, lhs), Shown(d, rhs), op)
    case UExpr(operand, op) => UExpr(Shown(d, operand), op)
    case Call(name, Some(p)) => Call(name, Some(Shown(d, p)))
    case _ => e
  }

  /** Every float literal of the expression is spelled alike by the two
      printers. */
  predicate FloatsAgree(e: Expr) {
    match e
    case FloatLiteral(j, p) => j == p
    case RExpr(lhs, rhs, _) => FloatsAgree(lhs) && FloatsAgree(rhs)
    case BExpr(lhs, rhs, _) => FloatsAgree(lhs) && FloatsAgree(rhs)
    case UExpr(operand, _) => FloatsAgree(operand)
    case Call(_, Some(p)) => FloatsAgree(p)
    case _ => true
  }

  /** An expression read back from the text `print(n)` writes for it. */
  function DecodeExprText(d: Dialect, text: seq<string>, n: nat): Option<Expr> {
    DecodeExpr(d, ReadLines(text), n)
  }

  /** An expression of the given kind, from the argument of its header and
      the lines below the header. */
  function DecodeKind(d: Dialect, tag: ExprTag, arg: string, body: seq<Line>, n: nat): Option<Expr>
    decreases |body| + 1, 1
  {
    match tag
    case RExprTag => DecodeRExpr(d, arg, body, n)
    case BExprTag => DecodeBExpr(d, arg, body, n)
    case UExprTag => DecodeUExpr(d, arg, body, n)
    case CallTag => DecodeCall(d, arg, body, n)
    case _ => if body == [] then DecodeLiteral(d, tag, arg) else None
  }

  /** A variable or literal: a header and nothing below it. A float
      literal's text on the page is only the dialect's own spelling, so the
      reader puts it in both places. */
  function DecodeLiteral(d: Dialect, tag: ExprTag, arg: string): Option<Expr> {
    match tag
    case VarTag => Some(Var(arg))
    case IntTag => DecodeIntLiteral(arg)
    case FloatTag => Some(FloatLiteral(arg, arg))
    case BoolTag => DecodeBoolLiteral(d, arg)
    case _ => None
  }

  function DecodeIntLiteral(arg: string): Option<Expr> {
    var v :- ParseInt(arg);
    Some(IntLiteral(v))
  }

  function DecodeBoolLiteral(d: Dialect, arg: string): Option<Expr> {
    if arg == BoolText(d, true) then Some(BoolLiteral(true))
    else if arg == BoolText(d, false) then Some(BoolLiteral(false))
    else None
  }

  function DecodeRExpr(d: Dialect, arg: string, body: seq<Line>, n: nat): Option<Expr>
    decreases |body| + 1, 0
  {
    var op :- ROpFromName(arg);
    var operands :- DecodeOperands(d, body, n, "(RExpr) LHS =", "(RExpr) RHS =");
    Some(RExpr(operands.0, operands.1, op))
  }

  function DecodeBExpr(d: Dialect, arg: string, body: seq<Line>, n: nat): Option<Expr>
    decreases |body| + 1, 0
  {
    var op :- BOpFromName(arg);
    var operands :- DecodeOperands(d, body, n, "(BExpr) LHS =", "(BExpr) RHS =");
    Some(BExpr(operands.0, operands.1, op))
  }

  function DecodeUExpr(d: Dialect, arg: string, body: seq<Line>, n: nat): Option<Expr>
    decreases |body| + 1, 0
  {
    var name :- StripSuffix(arg, ", expression =");
    var op :- UOpFromName(name);
    var operand :- DecodeExpr(d, body, n + 1);
    Some(UExpr(operand, op))
  }

  /** A call prints its parameter, if any, below its header. */
  function DecodeCall(d: Dialect, arg: string, body: seq<Line>, n: nat): Option<Expr>
    decreases |body| + 1, 0
  {
    if body == [] then Some(Call(arg, None))
    else
      var name :- StripSuffix(arg, ", parameter =");
      var p :- DecodeExpr(d, body, n + 1);
      Some(Call(name, Some(p)))
  }

  /** The two operands of a binary node, each after its label. */
  function DecodeOperands(d: Dialect, lines: seq<Line>, n: nat, lhsLabel: string, rhsLabel: string)
    : Option<(Expr, Expr)>
    decreases |lines|, 0
  {
    if |lines| == 0 || lines[0] != Line(n, lhsLabel) then None
    else
      var rest := lines[1..];
      var k := Span(rest, n + 1);
      if k == |rest| || rest[k] != Line(n, rhsLabel) then None
      else
        var lhs :- DecodeExpr(d, rest[..k], n + 1);
        var rhs :- DecodeExpr(d, rest[k + 1..], n + 1);
        Some((lhs, rhs))
  }

}

=== FILE: ast_decode_steps.dfy ===
/** One step of the expression round trip per kind of expression: given
    that the children read back correctly, the kind's own decoder recovers
    the node from the lines below its header. */
module AstDecodeSteps {
  import opened Wrappers
  import opened Strings
  import opened Ast
  import opened AstRender
  import opened AstRenderShape
  import opened AstDecode

  /** Every line of an expression's rendering lies at its depth or deeper. */
  lemma ExprIndented(d: Dialect, e: Expr, n: nat)
    ensures Indented(RenderExpr(d, e, n), n)
  {
    ExprShape(d, e, n);
    ShapeIndented(RenderExpr(d, e, n), n);
  }

  /** Where the pieces of a labelled pair of children lie. */
  lemma PairLayout(n: nat, lhsLabel: string, rhsLabel: string, l: seq<Line>, r: seq<Line>)
    requires |rhsLabel| > 0 && rhsLabel[0] == '('
    requires Indented(l, n + 1)
    ensures var lines := [Line(n, lhsLabel)] + l + ([Line(n, rhsLabel)] + r);
            var rest := lines[1..];
            |lines| > 0 && lines[0] == Line(n, lhsLabel) && Span(rest, n + 1) == |l| && |l| < |rest|
            && rest[|l|] == Line(n, rhsLabel) && rest[..|l|] == l && rest[|l| + 1..] == r
  {
    Pieces(Line(n, lhsLabel), l, Line(n, rhsLabel), r);
    SpanOf(l, [Line(n, rhsLabel)] + r, n + 1);
  }

  /** Where each piece of `[x] + a + ([y] + b)` lies. */
  lemma Pieces<T>(x: T, a: seq<T>, y: T, b: seq<T>)
    ensures var s := [x] + a + ([y] + b);
            s[0] == x && s[1..] == a + ([y] + b)
    ensures var rest := a + ([y] + b);
            |a| < |rest| && rest[|a|] == y && rest[..|a|] == a && rest[|a| + 1..] == b
  {
    var rest := a + ([y] + b);
    assert ([x] + a + ([y] + b))[1..] == rest;
    assert rest[|a| + 1..] == b;
  }

  lemma OperandsOf(d: Dialect, n: nat, lhsLabel: string, rhsLabel: string,
                   l: seq<Line>, r: seq<Line>, lhs: Expr, rhs: Expr)
    requires |rhsLabel| > 0 && rhsLabel[0] == '('
    requires Indented(l, n + 1)
    requires DecodeExpr(d, l, n + 1) == Some(lhs) && DecodeExpr(d, r, n + 1) == Some(rhs)
    ensures DecodeOperands(d, [Line(n, lhsLabel)] + l + ([Line(n, rhsLabel)] + r), n, lhsLabel, rhsLabel)
            == Some((lhs, rhs))
  {
    PairLayout(n, lhsLabel, rhsLabel, l, r);
  }

  function TagOf(e: Expr): ExprTag {
    match e
    case Var(_) => VarTag
    case IntLiteral(_) => IntTag
    case FloatLiteral(_, _) => FloatTag
    case BoolLiteral(_) => BoolTag
    case RExpr(_, _, _) => RExprTag
    case BExpr(_, _, _) => BExprTag
    case UExpr(_, _) => UExprTag
    case Call(_, _) => CallTag
  }

  /** What follows `Kind. ` in an expression's header. */
  function ExprArg(d: Dialect, e: Expr): string {
    match e
    case Var(name) => name
    case IntLiteral(v) => IntToString(v)
    case FloatLiteral(j, p) => FloatText(d, j, p)
    case BoolLiteral(b) => BoolText(d, b)
    case RExpr(_, _, op) => ROpName(op)
    case BExpr(_, _, op) => BOpName(op)
    case UExpr(_, op) => UOpName(op) + ", expression ="
    case Call(name, param) => name + (if param.Some? then ", parameter =" else "")
  }

  lemma HeaderSpelling(kind: string, arg: string)
    ensures kind + ". " + arg == kind + "." + (" " + arg)
  {
  }

  /** An expression's header is its kind's name, `. ` and its argument. */
  lemma ExprHeaderParts(d: Dialect, e: Expr)
    ensures ExprHeader(d, e) == ExprTagName(TagOf(e)) + ". " + ExprArg(d, e)
  {
    if e.Var? || e.IntLiteral? || e.FloatLiteral? || e.BoolLiteral? {
      LiteralHeaderParts(d, e);
    } else {
      CompoundHeaderParts(d, e);
    }
  }

  lemma LiteralHeaderParts(d: Dialect, e: Expr)
    requires e.Var? || e.IntLiteral? || e.FloatLiteral? || e.BoolLiteral?
    ensures ExprHeader(d, e) == ExprTagName(TagOf(e)) + ". " + ExprArg(d, e)
  {
    match e
    case Var(name) => KindHeader("Var. ", "Var", name);
    case IntLiteral(v) => KindHeader("IntLiteral. ", "IntLiteral", IntToString(v));
    case FloatLiteral(j, p) => KindHeader("FloatLiteral. ", "FloatLiteral", FloatText(d, j, p));
    case BoolLiteral(b) => KindHeader("BoolLiteral. ", "BoolLiteral", BoolText(d, b));
  }

  lemma CompoundHeaderParts(d: Dialect, e: Expr)
    requires !(e.Var? || e.IntLiteral? || e.FloatLiteral? || e.BoolLiteral?)
    ensures ExprHeader(d, e) == ExprTagName(TagOf(e)) + ". " + ExprArg(d, e)
  {
    match e
    case RExpr(_, _, op) => KindHeader("RExpr. ", "RExpr", ROpName(op));
    case BExpr(_, _, op) => KindHeader("BExpr. ", "BExpr", BOpName(op));
    case UExpr(_, op) =>
      AppendAssoc("UExpr. ", UOpName(op), ", expression =");
      KindHeader("UExpr. ", "UExpr", UOpName(op) + ", expression =");
    case Call(name, param) =>
      var tail := if param.Some? then ", parameter =" else "";
      AppendAssoc("Call. ", name, tail);
      KindHeader("Call. ", "Call", name + tail);
  }

  lemma KindHeader(head: string, kind: string, arg: string)
    requires head == kind + ". "
    ensures head + arg == kind + ". " + arg
  {
  }

  lemma AppendAssoc(a: string, b: string, c: string)
    ensures a + b + c == a + (b + c)
  {
  }

  lemma ExprHeaderRead(d: Dialect, e: Expr, n: nat)
    ensures ReadHeader(Line(n, ExprHeader(d, e)), n) == Some((ExprTagName(TagOf(e)), " " + ExprArg(d, e)))
  {
    ExprHeaderParts(d, e);
    HeaderSpelling(ExprTagName(TagOf(e)), ExprArg(d, e));
    ExprTagRoundTrip(TagOf(e));
    ReadHeaderOf(n, ExprTagName(TagOf(e)), " " + ExprArg(d, e));
  }

  lemma RExprLink(d: Dialect, lhs: Expr, rhs: Expr, op: ROpType, n: nat, l: seq<Line>, r: seq<Line>)
    requires ExprBody(d, RExpr(lhs, rhs, op), n) == [Line(n, "(RExpr) LHS =")] + l + ([Line(n, "(RExpr) RHS =")] + r)
    requires Indented(l, n + 1)
    requires DecodeExpr(d, l, n + 1) == Some(Shown(d, lhs)) && DecodeExpr(d, r, n + 1) == Some(Shown(d, rhs))
    ensures var e := RExpr(lhs, rhs, op);
            DecodeKind(d, TagOf(e), ExprArg(d, e), ExprBody(d, e, n), n) == Some(Shown(d, e))
  {
    RExprCase(d, op, l, r, Shown(d, lhs), Shown(d, rhs), n);
  }

  lemma BExprLink(d: Dialect, lhs: Expr, rhs: Expr, op: BOpType, n: nat, l: seq<Line>, r: seq<Line>)
    requires ExprBody(d, BExpr(lhs, rhs, op), n) == [Line(n, "(BExpr) LHS =")] + l + ([Line(n, "(BExpr) RHS =")] + r)
    requires Indented(l, n + 1)
    requires DecodeExpr(d, l, n + 1) == Some(Shown(d, lhs)) && DecodeExpr(d, r, n + 1) == Some(Shown(d, rhs))
    ensures var e := BExpr(lhs, rhs, op);
            DecodeKind(d, TagOf(e), ExprArg(d, e), ExprBody(d, e, n), n) == Some(Shown(d, e))
  {
    BExprCase(d, op, l, r, Shown(d, lhs), Shown(d, rhs), n);
  }

  lemma UExprLink(d: Dialect, operand: Expr, op: UOpType, n: nat, body: seq<Line>)
    requires ExprBody(d, UExpr(operand, op), n) == body
    requires DecodeExpr(d, body, n + 1) == Some(Shown(d, operand))
    ensures var e := UExpr(operand, op);
            DecodeKind(d, TagOf(e), ExprArg(d, e), ExprBody(d, e, n), n) == Some(Shown(d, e))
  {
    UExprCase(d, op, body, Shown(d, operand), n);
  }

  lemma CallLink(d: Dialect, name: string, p: Expr, n: nat, body: seq<Line>)
    requires ExprBody(d, Call(name, Some(p)), n) == body
    requires |body| > 0 && DecodeExpr(d, body, n + 1) == Some(Shown(d, p))
    ensures var e := Call(name, Some(p));
            DecodeKind(d, TagOf(e), ExprArg(d, e), ExprBody(d, e, n), n) == Some(Shown(d, e))
  {
    CallCase(d, name, body, Shown(d, p), n);
  }

  /** Expressions with nothing below their header. */
  lemma LeafRoundTrip(d: Dialect, e: Expr, n: nat)
    requires !(e.RExpr? || e.BExpr? || e.UExpr? || (e.Call? && e.param.Some?))
    ensures DecodeKind(d, TagOf(e), ExprArg(d, e), ExprBody(d, e, n), n) == Some(Shown(d, e))
  {
    assert ExprBody(d, e, n) == [];
    match e
    case Call(name, None) =>
      assert ExprArg(d, e) == name;
    case IntLiteral(v) =>
      ParseIntToString(v);
    case BoolLiteral(b) =>
      assert BoolText(d, true) != BoolText(d, false);
    case Var(_) =>
    case FloatLiteral(_, _) =>
  }

  /** The lines an expression prints below its header. */
  function ExprBody(d: Dialect, e: Expr, n: nat): seq<Line> {
    match e
    case RExpr(lhs, rhs, _) =>
      [Line(n, "(RExpr) LHS =")] + RenderExpr(d, lhs, n + 1) + ([Line(n, "(RExpr) RHS =")] + RenderExpr(d, rhs, n + 1))
    case BExpr(lhs, rhs, _) =>
      [Line(n, "(BExpr) LHS =")] + RenderExpr(d, lhs, n + 1) + ([Line(n, "(BExpr) RHS =")] + RenderExpr(d, rhs, n + 1))
    case UExpr(operand, _) => RenderExpr(d, operand, n + 1)
    case Call(_, Some(p)) => RenderExpr(d, p, n + 1)
    case _ => []
  }

  /** What each compound kind prints below its header, one lemma per kind. */
  lemma RExprBody(d: Dialect, lhs: Expr, rhs: Expr, op: ROpType, n: nat)
    ensures ExprBody(d, RExpr(lhs, rhs, op), n)
         == [Line(n, "(RExpr) LHS =")] + RenderExpr(d, lhs, n + 1) + ([Line(n, "(RExpr) RHS =")] + RenderExpr(d, rhs, n + 1))
  {
  }

  lemma BExprBody(d: Dialect, lhs: Expr, rhs: Expr, op: BOpType, n: nat)
    ensures ExprBody(d, BExpr(lhs, rhs, op), n)
         == [Line(n, "(BExpr) LHS =")] + RenderExpr(d, lhs, n + 1) + ([Line(n, "(BExpr) RHS =")] + RenderExpr(d, rhs, n + 1))
  {
  }

  lemma UExprBody(d: Dialect, operand: Expr, op: UOpType, n: nat)
    ensures ExprBody(d, UExpr(operand, op), n) == RenderExpr(d, operand, n + 1)
  {
  }

  lemma CallBody(d: Dialect, name: string, p: Expr, n: nat)
    ensures ExprBody(d, Call(name, Some(p)), n) == RenderExpr(d, p, n + 1)
  {
  }

  lemma RenderExprSplit(d: Dialect, e: Expr, n: nat)
    ensures RenderExpr(d, e, n) == [Line(n, ExprHeader(d, e))] + ExprBody(d, e, n)
  {
  }

  lemma RExprCase(d: Dialect, op: ROpType, l: seq<Line>, r: seq<Line>, lhs: Expr, rhs: Expr, n: nat)
    requires Indented(l, n + 1)
    requires DecodeExpr(d, l, n + 1) == Some(lhs) && DecodeExpr(d, r, n + 1) == Some(rhs)
    ensures DecodeKind(d, RExprTag, ROpName(op), [Line(n, "(RExpr) LHS =")] + l + ([Line(n, "(RExpr) RHS =")] + r), n)
            == Some(RExpr(lhs, rhs, op))
  {
    ROpNameRoundTrip(op);
    OperandsOf(d, n, "(RExpr) LHS =", "(RExpr) RHS =", l, r, lhs, rhs);
  }

  lemma BExprCase(d: Dialect, op: BOpType, l: seq<Line>, r: seq<Line>, lhs: Expr, rhs: Expr, n: nat)
    requires Indented(l, n + 1)
    requires DecodeExpr(d, l, n + 1) == Some(lhs) && DecodeExpr(d, r, n + 1) == Some(rhs)
    ensures DecodeKind(d, BExprTag, BOpName(op), [Line(n, "(BExpr) LHS =")] + l + ([Line(n, "(BExpr) RHS =")] + r), n)
            == Some(BExpr(lhs, rhs, op))
  {
    BOpNameRoundTrip(op);
    OperandsOf(d, n, "(BExpr) LHS =", "(BExpr) RHS =", l, r, lhs, rhs);
  }

  lemma UExprCase(d: Dialect, op: UOpType, body: seq<Line>, operand: Expr, n: nat)
    requires DecodeExpr(d, body, n + 1) == Some(operand)
    ensures DecodeKind(d, UExprTag, UOpName(op) + ", expression =", body, n) == Some(UExpr(operand, op))
  {
    UOpNameRoundTrip(op);
    StripSuffixOf(UOpName(op), ", expression =");
  }

  lemma CallCase(d: Dialect, name: string, body: seq<Line>, p: Expr, n: nat)
    requires |body| > 0 && DecodeExpr(d, body, n + 1) == Some(p)
    ensures DecodeKind(d, CallTag, name + ", parameter =", body, n) == Some(Call(name, Some(p)))
  {
    StripSuffixOf(name, ", parameter =");
  }
}

=== FILE: ast_dialects.dfy ===
/** How the Java and the Python renderings of the same tree relate. Both
    write the same number of lines for every statement, block and function
    (the line counts in `AstRender` do not mention the dialect); they write different text exactly where a boolean literal, a float
    literal the two printers spell differently or an extern function
    declaration occurs; and a root never renders alike in the two, because
    each of its three sections prints a header in exactly one of them. */
module AstDialects {
  import opened Wrappers
  import opened Strings
  import opened Ast
  import opened AstRender

  // ---------------------------------------------------------------------
  // Where the dialects differ

  /** The expression holds a literal the two printers spell differently:
      any boolean (`true` against `True`), or a float whose `%s` and `str`
      texts differ (`1.0E7` against `10000000.0`). */
  predicate SpelledApart(e: Expr) {
    match e
    case BoolLiteral(_) => true
    case FloatLiteral(j, p) => j != p
    case RExpr(lhs, rhs, _) => SpelledApart(lhs) || SpelledApart(rhs)
    case BExpr(lhs, rhs, _) => SpelledApart(lhs) || SpelledApart(rhs)
    case UExpr(operand, _) => SpelledApart(operand)
    case Call(_, Some(p)) => SpelledApart(p)
    case _ => false
  }

  predicate IsExternFuncDecl(decl: Decl) {
    decl.FuncDecl? && decl.isExtern
  }

  /** A statement holds something the dialects spell differently. */
  predicate StmtDiffers(s: Stmt) {
    match s
    case AsgnStmt(a) => SpelledApart(a.rhs)
    case BlockStmt(b) => BlockDiffers(b)
    case DeclStmt(decl) => IsExternFuncDecl(decl)
    case ExprStmt(e) => SpelledApart(e)
    case Ret(None) => false
    case Ret(Some(e)) => SpelledApart(e)
    case While(cond, body) => SpelledApart(cond) || BlockDiffers(body)
    case If(cond, ifBody, elseBody) => SpelledApart(cond) || BlockDiffers(ifBody) || BlockDiffers(elseBody)
    case EmptyStmt => false
  }

  predicate BlockDiffers(b: Block) {
    StmtsDiffer(b.stmts)
  }

  predicate StmtsDiffer(ss: seq<Stmt>) {
    |ss| != 0 && (StmtDiffers(ss[0]) || StmtsDiffer(ss[1..]))
  }

  /** Two concatenations whose first parts have the same length are equal
      exactly when both parts are. */
  lemma Cancel<T>(a1: seq<T>, b1: seq<T>, a2: seq<T>, b2: seq<T>)
    requires |a1| == |a2|
    ensures a1 + b1 == a2 + b2 <==> a1 == a2 && b1 == b2
  {
    if a1 + b1 == a2 + b2 {
      Halves(a1, b1);
      Halves(a2, b2);
    }
  }

  lemma ConsCancel<T>(x1: T, b1: seq<T>, x2: T, b2: seq<T>)
    ensures [x1] + b1 == [x2] + b2 <==> x1 == x2 && b1 == b2
  {
    Cancel([x1], b1, [x2], b2);
    assert [x1] == [x2] ==> [x1][0] == [x2][0];
  }

  /** A header line followed by a labelled child and a second labelled
      part, as binary expressions and `While` print, is equal in the two
      dialects exactly when the headers and both parts are. */
  lemma LabelledPairCancel(h1: Line, h2: Line, l1: Line, c1: seq<Line>, c2: seq<Line>,
                           l2: Line, t1: seq<Line>, t2: seq<Line>)
    requires |c1| == |c2|
    ensures [h1] + ([l1] + c1 + ([l2] + t1)) == [h2] + ([l1] + c2 + ([l2] + t2))
            <==> h1 == h2 && c1 == c2 && t1 == t2
  {
    ConsCancel(h1, [l1] + c1 + ([l2] + t1), h2, [l1] + c2 + ([l2] + t2));
    Cancel([l1] + c1, [l2] + t1, [l1] + c2, [l2] + t2);
    ConsCancel(l1, c1, l1, c2);
    ConsCancel(l2, t1, l2, t2);
  }

  /** Java and Python render an expression alike exactly when it holds no
      literal they spell differently. */
  lemma {:induction false} ExprDialectsAgree(e: Expr, n: nat)
    ensures RenderExpr(Java, e, n) == RenderExpr(Python, e, n) <==> !SpelledApart(e)
    decreases e
  {
    match e
    case BoolLiteral(b) =>
      var j := ExprHeader(Java, e);
      var p := ExprHeader(Python, e);
      assert j == "BoolLiteral. " + BoolText(Java, b);
      assert p == "BoolLiteral. " + BoolText(Python, b);
      assert j[13] != p[13];
      assert RenderExpr(Java, e, n)[0] != RenderExpr(Python, e, n)[0];
    case FloatLiteral(j, p) =>
      Cancel("FloatLiteral. ", j, "FloatLiteral. ", p);
      ConsCancel(Line(n, ExprHeader(Java, e)), [], Line(n, ExprHeader(Python, e)), []);
    case RExpr(lhs, rhs, op) =>
      ExprDialectsAgree(lhs, n + 1);
      ExprDialectsAgree(rhs, n + 1);
      RExprDialectsLayout(lhs, rhs, op, n);
    case BExpr(lhs, rhs, op) =>
      ExprDialectsAgree(lhs, n + 1);
      ExprDialectsAgree(rhs, n + 1);
      BExprDialectsLayout(lhs, rhs, op, n);
    case UExpr(operand, _) =>
      ExprDialectsAgree(operand, n + 1);
      ConsCancel(Line(n, ExprHeader(Java, e)), RenderExpr(Java, operand, n + 1),
                 Line(n, ExprHeader(Python, e)), RenderExpr(Python, operand, n + 1));
    case Call(_, Some(p)) =>
      ExprDialectsAgree(p, n + 1);
      ConsCancel(Line(n, ExprHeader(Java, e)), RenderExpr(Java, p, n + 1),
                 Line(n, ExprHeader(Python, e)), RenderExpr(Python, p, n + 1));
    case _ =>
  }

  lemma RExprDialectsLayout(lhs: Expr, rhs: Expr, op: ROpType, n: nat)
    requires RenderExpr(Java, lhs, n + 1) == RenderExpr(Python, lhs, n + 1) <==> !SpelledApart(lhs)
    requires RenderExpr(Java, rhs, n + 1) == RenderExpr(Python, rhs, n + 1) <==> !SpelledApart(rhs)
    ensures var e := RExpr(lhs, rhs, op);
            RenderExpr(Java, e, n) == RenderExpr(Python, e, n) <==> !SpelledApart(e)
  {
    var e := RExpr(lhs, rhs, op);
    ExprLineCount(Java, lhs, n + 1);
    ExprLineCount(Python, lhs, n + 1);
    RExprRendering(Java, lhs, rhs, op, n);
    RExprRendering(Python, lhs, rhs, op, n);
    LabelledPairCancel(Line(n, ExprHeader(Java, e)), Line(n, ExprHeader(Python, e)),
                       Line(n, "(RExpr) LHS ="), RenderExpr(Java, lhs, n + 1), RenderExpr(Python, lhs, n + 1),
                       Line(n, "(RExpr) RHS ="), RenderExpr(Java, rhs, n + 1), RenderExpr(Python, rhs, n + 1));
  }

  lemma BExprDialectsLayout(lhs: Expr, rhs: Expr, op: BOpType, n: nat)
    requires RenderExpr(Java, lhs, n + 1) == RenderExpr(Python, lhs, n + 1) <==> !SpelledApart(lhs)
    requires RenderExpr(Java, rhs, n + 1) == RenderExpr(Python, rhs, n + 1) <==> !SpelledApart(rhs)
    ensures var e := BExpr(lhs, rhs, op);
            RenderExpr(Java, e, n) == RenderExpr(Python, e, n) <==> !SpelledApart(e)
  {
    var e := BExpr(lhs, rhs, op);
    ExprLineCount(Java, lhs, n + 1);
    ExprLineCount(Python, lhs, n + 1);
    BExprRendering(Java, lhs, rhs, op, n);
    BExprRendering(Python, lhs, rhs, op, n);
    LabelledPairCancel(Line(n, ExprHeader(Java, e)), Line(n, ExprHeader(Python, e)),
                       Line(n, "(BExpr) LHS ="), RenderExpr(Java, lhs, n + 1), RenderExpr(Python, lhs, n + 1),
                       Line(n, "(BExpr) RHS ="), RenderExpr(Java, rhs, n + 1), RenderExpr(Python, rhs, n + 1));
  }

  /** The three-part layout of `If`. */
  lemma LabelledTripleCancel(h1: Line, h2: Line, l1: Line, c1: seq<Line>, c2: seq<Line>,
                             l2: Line, t1: seq<Line>, t2: seq<Line>,
                             l3: Line, u1: seq<Line>, u2: seq<Line>)
    requires |c1| == |c2| && |t1| == |t2|
    ensures [h1] + ([l1] + c1 + ([l2] + t1 + ([l3] + u1))) == [h2] + ([l1] + c2 + ([l2] + t2 + ([l3] + u2)))
            <==> h1 == h2 && c1 == c2 && t1 == t2 && u1 == u2
  {
    ConsCancel(h1, [l1] + c1 + ([l2] + t1 + ([l3] + u1)), h2, [l1] + c2 + ([l2] + t2 + ([l3] + u2)));
    Cancel([l1] + c1, [l2] + t1 + ([l3] + u1), [l1] + c2, [l2] + t2 + ([l3] + u2));
    ConsCancel(l1, c1, l1, c2);
    Cancel([l2] + t1, [l3] + u1, [l2] + t2, [l3] + u2);
    ConsCancel(l2, t1, l2, t2);
    ConsCancel(l3, u1, l3, u2);
  }

  /** A declaration renders alike in the two dialects unless it is an
      extern function declaration, whose Java line carries one more space. */
  lemma DeclDialectsAgree(decl: Decl, n: nat)
    ensures RenderDecl(Java, decl, n) == RenderDecl(Python, decl, n) <==> !IsExternFuncDecl(decl)
  {
    if IsExternFuncDecl(decl) {
      assert |DeclHeader(Java, decl)| == |DeclHeader(Python, decl)| + 1;
      assert RenderDecl(Java, decl, n)[0] != RenderDecl(Python, decl, n)[0];
    }
  }

  /** Java and Python render a statement alike exactly when it holds no
      literal they spell differently and no extern function declaration. */
  lemma {:induction false} StmtDialectsAgree(s: Stmt, n: nat)
    ensures RenderStmt(Java, s, n) == RenderStmt(Python, s, n) <==> !StmtDiffers(s)
    decreases s, 2
  {
    match s
    case AsgnStmt(a) =>
      ExprDialectsAgree(a.rhs, n + 1);
      ConsCancel(Line(n, AsgnHeader(a)), RenderExpr(Java, a.rhs, n + 1),
                 Line(n, AsgnHeader(a)), RenderExpr(Python, a.rhs, n + 1));
    case BlockStmt(b) => BlockDialectsAgree(b, n);
    case DeclStmt(decl) => DeclDialectsAgree(decl, n);
    case ExprStmt(e) => ExprDialectsAgree(e, n);
    case Ret(None) =>
    case Ret(Some(e)) =>
      ExprDialectsAgree(e, n + 1);
      ConsCancel(Line(n, RetHeader(Some(e))), RenderExpr(Java, e, n + 1),
                 Line(n, RetHeader(Some(e))), RenderExpr(Python, e, n + 1));
    case While(cond, body) => WhileDialectsAgree(cond, body, n);
    case If(cond, ifBody, elseBody) => IfDialectsAgree(cond, ifBody, elseBody, n);
    case EmptyStmt =>
  }

  lemma {:induction false} WhileDialectsAgree(cond: Expr, body: Block, n: nat)
    ensures var s := While(cond, body);
            RenderStmt(Java, s, n) == RenderStmt(Python, s, n) <==> !StmtDiffers(s)
    decreases While(cond, body), 1
  {
    ExprDialectsAgree(cond, n + 1);
    BlockDialectsAgree(body, n + 1);
    WhileDialectsLayout(cond, body, n);
  }

  lemma WhileDialectsLayout(cond: Expr, body: Block, n: nat)
    requires RenderExpr(Java, cond, n + 1) == RenderExpr(Python, cond, n + 1) <==> !SpelledApart(cond)
    requires RenderBlock(Java, body, n + 1) == RenderBlock(Python, body, n + 1) <==> !BlockDiffers(body)
    ensures var s := While(cond, body);
            RenderStmt(Java, s, n) == RenderStmt(Python, s, n) <==> !StmtDiffers(s)
  {
    ExprLineCount(Java, cond, n + 1);
    ExprLineCount(Python, cond, n + 1);
    WhileRendering(Java, cond, body, n);
    WhileRendering(Python, cond, body, n);
    LabelledPairCancel(Line(n, "While."), Line(n, "While."),
                       Line(n, "(While) condition ="), RenderExpr(Java, cond, n + 1), RenderExpr(Python, cond, n + 1),
                       Line(n, "(While) body ="), RenderBlock(Java, body, n + 1), RenderBlock(Python, body, n + 1));
  }

  lemma {:induction false} IfDialectsAgree(cond: Expr, ifBody: Block, elseBody: Block, n: nat)
    ensures var s := If(cond, ifBody, elseBody);
            RenderStmt(Java, s, n) == RenderStmt(Python, s, n) <==> !StmtDiffers(s)
    decreases If(cond, ifBody, elseBody), 1
  {
    ExprDialectsAgree(cond, n + 1);
    BlockDialectsAgree(ifBody, n + 1);
    BlockDialectsAgree(elseBody, n + 1);
    IfDialectsLayout(cond, ifBody, elseBody, n);
  }

  lemma IfDialectsLayout(cond: Expr, ifBody: Block, elseBody: Block, n: nat)
    requires RenderExpr(Java, cond, n + 1) == RenderExpr(Python, cond, n + 1) <==> !SpelledApart(cond)
    requires RenderBlock(Java, ifBody, n + 1) == RenderBlock(Python, ifBody, n + 1) <==> !BlockDiffers(ifBody)
    requires RenderBlock(Java, elseBody, n + 1) == RenderBlock(Python, elseBody, n + 1) <==> !BlockDiffers(elseBody)
    ensures var s := If(cond, ifBody, elseBody);
            RenderStmt(Java, s, n) == RenderStmt(Python, s, n) <==> !StmtDiffers(s)
  {
    ExprLineCount(Java, cond, n + 1);
    ExprLineCount(Python, cond, n + 1);
    IfRendering(Java, cond, ifBody, elseBody, n);
    IfRendering(Python, cond, ifBody, elseBody, n);
    LabelledTripleCancel(Line(n, "If."), Line(n, "If."),
                         Line(n, "(If) condition ="), RenderExpr(Java, cond, n + 1), RenderExpr(Python, cond, n + 1),
                         Line(n, "(If) if_body ="), RenderBlock(Java, ifBody, n + 1), RenderBlock(Python, ifBody, n + 1),
                         Line(n, "(If) else_body ="), RenderBlock(Java, elseBody, n + 1), RenderBlock(Python, elseBody, n + 1));
  }

  lemma {:induction false} BlockDialectsAgree(b: Block, n: nat)
    ensures RenderBlock(Java, b, n) == RenderBlock(Python, b, n) <==> !BlockDiffers(b)
    decreases b, 1
  {
    StmtsDialectsAgree(b.stmts, n + 1);
    ConsCancel(Line(n, "Block."), RenderStmts(Java, b.stmts, n + 1),
               Line(n, "Block."), RenderStmts(Python, b.stmts, n + 1));
  }

  lemma {:induction false} StmtsDialectsAgree(ss: seq<Stmt>, n: nat)
    ensures RenderStmts(Java, ss, n) == RenderStmts(Python, ss, n) <==> !StmtsDiffer(ss)
    decreases ss, 0
  {
    if |ss| != 0 {
      StmtDialectsAgree(ss[0], n);
      StmtsDialectsAgree(ss[1..], n);
      Cancel(RenderStmt(Java, ss[0], n), RenderStmts(Java, ss[1..], n),
             RenderStmt(Python, ss[0], n), RenderStmts(Python, ss[1..], n));
    }
  }

  // ---------------------------------------------------------------------
  // Roots

  /** Each section prints its header in exactly one dialect, so the two
      header counts add up to three and can never be equal: the Java and
      the Python rendering of a root always differ, by an odd number of
      lines. */
  lemma RootDialectsDiffer(root: Root, n: nat)
    ensures HeaderCount(Java, root) + HeaderCount(Python, root) == 3
    ensures RenderRoot(Java, root, n) != RenderRoot(Python, root, n)
  {
  }
}

=== FILE: ast_render.dfy ===
/** The `print(indentation_level)` methods of `ast.java` and `AST.py`, as
    pure functions from a node and a depth to the list of lines the method
    writes (one list element per `printf`/`print` call, without the line
    terminator). Each renderer builds `Line` records, a depth and the text
    after the indent; `Render` spells every record out as the printed
    string.

    The two libraries agree line for line except in four places, which the
    `Dialect` parameter selects:
    - the section headers of `Root` print when the list is EMPTY in Java and
      when it is NON-EMPTY in Python;
    - a boolean literal prints as `true`/`false` in Java, `True`/`False` in
      Python;
    - a float literal prints its value as Java's `%s` or Python's `str`
      spells it;
    - an extern function declaration prints `extern ` followed by the
      separating space in Java (two spaces), `extern` and the space in
      Python (one space). */
module AstRender {
  import opened Wrappers
  import opened Strings
  import opened Ast

  datatype Dialect = Java | Python

  /** `INDENT_STR`: one unit of depth. */
  const IndentStr: string := "|   "

  function Indent(n: nat): (r: string)
    ensures |r| == 4 * n
  {
    Repeat(IndentStr, n)
  }

  /** One output line, before its indentation is spelled out: the depth it
      is printed at and the text that follows the indent. */
  datatype Line = Line(depth: nat, text: string)

  /** The line as `print` writes it: `depth` copies of `INDENT_STR`, then
      the text. */
  function Spell(l: Line): string {
    Indent(l.depth) + l.text
  }

  /** The printed form of a list of lines, line by line. */
  function Spelled(lines: seq<Line>): (r: seq<string>)
    ensures |r| == |lines|
  {
    seq(|lines|, i requires 0 <= i < |lines| => Spell(lines[i]))
  }

  // ---------------------------------------------------------------------
  // Enumerations print as their member names (Java's `Enum.toString`,
  // Python's `MyEnum.__str__`).

  function ROpName(op: ROpType): string {
    match op
    case LT => "LT"
    case GT => "GT"
    case LEQ => "LEQ"
    case GEQ => "GEQ"
    case EQ => "EQ"
    case NEQ => "NEQ"
  }

  function BOpName(op: BOpType): string {
    match op
    case ADD => "ADD"
    case SUB => "SUB"
    case DIV => "DIV"
    case MUL => "MUL"
  }

  function UOpName(op: UOpType): string {
    match op
    case POS => "POS"
    case NEG => "NEG"
  }

  function DataTypeName(t: DataType): string {
    match t
    case VOID_T => "VOID_T"
    case INT_T => "INT_T"
    case FLOAT_T => "FLOAT_T"
    case BOOL_T => "BOOL_T"
  }

  /** Java's `%s` of a `Boolean`, Python's f-string of a `bool`. */
  function BoolText(d: Dialect, b: bool): string {
    match d
    case Java => if b then "true" else "false"
    case Python => if b then "True" else "False"
  }

  /** A float literal's value as the dialect's printer spells it. */
  function FloatText(d: Dialect, javaText: string, pythonText: string): string {
    match d
    case Java => javaText
    case Python => pythonText
  }

  /** The text a `FuncDecl` header puts before its separating space. */
  function FuncDeclExtern(d: Dialect, isExtern: bool): string {
    if !isExtern then "" else if d == Java then "extern " else "extern"
  }

  // ---------------------------------------------------------------------
  // The shape of a rendering

  predicate IsUpper(c: char) {
    'A' <= c <= 'Z'
  }

  /** A line whose text starts with a visible character other than the bar
      of `INDENT_STR`, so that its printed form shows where the indent
      ends. */
  predicate Plain(l: Line) {
    |l.text| > 0 && l.text[0] != '|'
  }

  /** A line that opens a node at depth `n`: it sits at depth `n` and its
      text starts with the capital letter of a node kind's name. */
  predicate IsHeaderAt(l: Line, n: nat) {
    l.depth == n && |l.text| > 0 && IsUpper(l.text[0])
  }

  /** Every line is plain and lies at depth `n` or deeper. */
  predicate Indented(lines: seq<Line>, n: nat)
    decreases |lines|
  {
    |lines| == 0 || (lines[0].depth >= n && Plain(lines[0]) && Indented(lines[1..], n))
  }

  /** Lines that may follow a header at depth `n`: plain, at least `n` deep,
      and none of them opens another node at depth `n` (they are
      `(Kind) ...` labels at depth `n` or lines of children deeper down). */
  predicate Below(lines: seq<Line>, n: nat)
    decreases |lines|
  {
    |lines| == 0
    || (lines[0].depth >= n && Plain(lines[0]) && !IsHeaderAt(lines[0], n) && Below(lines[1..], n))
  }

  /** The rendering of one non-root node at depth `n`. */
  predicate NodeShape(lines: seq<Line>, n: nat) {
    |lines| >= 1 && IsHeaderAt(lines[0], n) && Below(lines[1..], n)
  }

  lemma IndentSucc(n: nat)
    ensures Indent(n + 1) == Indent(n) + IndentStr
  {
    RepeatSucc(IndentStr, n);
  }

  lemma {:induction false} Nest(lines: seq<Line>, n: nat)
    requires Indented(lines, n + 1)
    ensures Below(lines, n)
    decreases |lines|
  {
    if |lines| != 0 {
      Nest(lines[1..], n);
    }
  }

  lemma {:induction false} BelowIndented(lines: seq<Line>, n: nat)
    requires Below(lines, n)
    ensures Indented(lines, n)
    decreases |lines|
  {
    if |lines| != 0 {
      BelowIndented(lines[1..], n);
    }
  }

  lemma ShapeIndented(lines: seq<Line>, n: nat)
    requires NodeShape(lines, n)
    ensures Indented(lines, n)
  {
    BelowIndented(lines[1..], n);
  }

  lemma NestNode(lines: seq<Line>, n: nat)
    requires NodeShape(lines, n + 1)
    ensures Below(lines, n)
  {
    ShapeIndented(lines, n + 1);
    Nest(lines, n);
  }

  /** A `(Kind) ...` label line at depth `n` does not open a node there. */
  lemma Label(n: nat, text: string)
    requires |text| > 0 && text[0] == '('
    ensures Below([Line(n, text)], n)
  {
    assert [Line(n, text)][1..] == [];
  }

  lemma {:induction false} BelowAppend(a: seq<Line>, b: seq<Line>, n: nat)
    requires Below(a, n) && Below(b, n)
    ensures Below(a + b, n)
    decreases |a|
  {
    if |a| == 0 {
      assert a + b == b;
    } else {
      BelowAppend(a[1..], b, n);
      assert (a + b)[1..] == a[1..] + b;
    }
  }

  lemma {:induction false} IndentedAppend(a: seq<Line>, b: seq<Line>, n: nat)
    requires Indented(a, n) && Indented(b, n)
    ensures Indented(a + b, n)
    decreases |a|
  {
    if |a| == 0 {
      assert a + b == b;
    } else {
      IndentedAppend(a[1..], b, n);
      assert (a + b)[1..] == a[1..] + b;
    }
  }

  /** A header, then `body`, is a node's shape when `body` stays below it. */
  lemma Assemble(n: nat, header: string, body: seq<Line>)
    requires |header| > 0 && IsUpper(header[0])
    requires Below(body, n)
    ensures NodeShape([Line(n, header)] + body, n)
  {
    assert ([Line(n, header)] + body)[1..] == body;
  }

  /** `caption`, then the node rendered at `n + 1`, stays below depth `n`. */
  lemma LabelledChild(n: nat, caption: string, child: seq<Line>)
    requires |caption| > 0 && caption[0] == '('
    requires NodeShape(child, n + 1)
    ensures Below([Line(n, caption)] + child, n)
  {
    Label(n, caption);
    NestNode(child, n);
    BelowAppend([Line(n, caption)], child, n);
  }

  // ---------------------------------------------------------------------
  // Line counts, the same in both dialects: the reference the renderers'
  // contracts are stated against

  /** The number of lines an expression prints: one per node, plus the two
      operand labels of each binary node. */
  function ExprLines(e: Expr): nat {
    match e
    case RExpr(lhs, rhs, _) => 3 + ExprLines(lhs) + ExprLines(rhs)
    case BExpr(lhs, rhs, _) => 3 + ExprLines(lhs) + ExprLines(rhs)
    case UExpr(operand, _) => 1 + ExprLines(operand)
    case Call(_, Some(p)) => 1 + ExprLines(p)
    case _ => 1
  }

  function StmtLines(s: Stmt): nat {
    match s
    case AsgnStmt(a) => 1 + ExprLines(a.rhs)
    case BlockStmt(b) => BlockLines(b)
    case DeclStmt(_) => 1
    case ExprStmt(e) => ExprLines(e)
    case Ret(None) => 1
    case Ret(Some(e)) => 1 + ExprLines(e)
    case While(cond, body) => 3 + ExprLines(cond) + BlockLines(body)
    case If(cond, ifBody, elseBody) => 4 + ExprLines(cond) + BlockLines(ifBody) + BlockLines(elseBody)
    case EmptyStmt => 1
  }

  function BlockLines(b: Block): nat {
    1 + StmtsLines(b.stmts)
  }

  function StmtsLines(ss: seq<Stmt>): nat {
    if |ss| == 0 then 0 else StmtLines(ss[0]) + StmtsLines(ss[1..])
  }

  function AsgnsLines(asgns: seq<Asgn>): nat {
    if |asgns| == 0 then 0 else 1 + ExprLines(asgns[0].rhs) + AsgnsLines(asgns[1..])
  }

  function FuncDefsLines(funcs: seq<FuncDef>): nat {
    if |funcs| == 0 then 0 else 1 + BlockLines(funcs[0].body) + FuncDefsLines(funcs[1..])
  }

  /** How many of a root's sections print a header in dialect `d`. */
  function HeaderCount(d: Dialect, root: Root): nat {
    (if PrintsSectionHeader(d, |root.asgns| == 0) then 1 else 0)
    + (if PrintsSectionHeader(d, |root.decls| == 0) then 1 else 0)
    + (if PrintsSectionHeader(d, |root.funcs| == 0) then 1 else 0)
  }

  // ---------------------------------------------------------------------
  // The renderers

  function ExprHeader(d: Dialect, e: Expr): string {
    match e
    case Var(name) => "Var. " + name
    case IntLiteral(v) => "IntLiteral. " + IntToString(v)
    case FloatLiteral(j, p) => "FloatLiteral. " + FloatText(d, j, p)
    case BoolLiteral(b) => "BoolLiteral. " + BoolText(d, b)
    case RExpr(_, _, op) => "RExpr. " + ROpName(op)
    case BExpr(_, _, op) => "BExpr. " + BOpName(op)
    case UExpr(_, op) => "UExpr. " + UOpName(op) + ", expression ="
    case Call(name, param) => "Call. " + name + (if param.Some? then ", parameter =" else "")
  }

  /** `ASTExprNode.print`: a header line at depth `n`; operands at `n + 1`,
      each after a `(Kind) LHS =`/`(Kind) RHS =` label for the binary forms. */
  function RenderExpr(d: Dialect, e: Expr, n: nat): (r: seq<Line>)
    ensures |r| >= 1 && r[0] == Line(n, ExprHeader(d, e))
  {
    var h := ExprHeader(d, e);
    match e
    case RExpr(lhs, rhs, _) =>
      [Line(n, h)] + ([Line(n, "(RExpr) LHS =")] + RenderExpr(d, lhs, n + 1)
                      + ([Line(n, "(RExpr) RHS =")] + RenderExpr(d, rhs, n + 1)))
    case BExpr(lhs, rhs, _) =>
      [Line(n, h)] + ([Line(n, "(BExpr) LHS =")] + RenderExpr(d, lhs, n + 1)
                      + ([Line(n, "(BExpr) RHS =")] + RenderExpr(d, rhs, n + 1)))
    case UExpr(operand, _) => [Line(n, h)] + RenderExpr(d, operand, n + 1)
    case Call(_, Some(p)) => [Line(n, h)] + RenderExpr(d, p, n + 1)
    case _ => [Line(n, h)]
  }

  function DeclHeader(d: Dialect, decl: Decl): string {
    match decl
    case VarDecl(ext, t, name) =>
      "VarDecl. " + (if ext then "extern " else "") + DataTypeName(t) + " " + name
    case FuncDecl(ext, rt, name, pt) =>
      "FuncDecl. " + FuncDeclExtern(d, ext) + " " + DataTypeName(rt) + " " + name
        + "(" + DataTypeName(pt) + ")"
  }

  /** `ASTVarDeclNode.print` and `ASTFuncDeclNode.print`: one line. */
  function RenderDecl(d: Dialect, decl: Decl, n: nat): (r: seq<Line>)
    ensures |r| == 1 && IsHeaderAt(r[0], n)
  {
    [Line(n, DeclHeader(d, decl))]
  }

  function AsgnHeader(a: Asgn): string {
    "Asgn. " + a.lhs + " ="
  }

  /** `ASTAsgnNode.print`: the header, then the right-hand side at `n + 1`. */
  function RenderAsgn(d: Dialect, a: Asgn, n: nat): (r: seq<Line>)
    ensures |r| == 1 + ExprLines(a.rhs)
    ensures r[0] == Line(n, AsgnHeader(a))
  {
    ExprLineCount(d, a.rhs, n + 1);
    [Line(n, AsgnHeader(a))] + RenderExpr(d, a.rhs, n + 1)
  }

  /** `ASTBlockNode.print`: `Block.`, then every statement at `n + 1`. */
  function RenderBlock(d: Dialect, b: Block, n: nat): (r: seq<Line>)
    ensures |r| == BlockLines(b) && r[0] == Line(n, "Block.")
    decreases b
  {
    [Line(n, "Block.")] + RenderStmts(d, b.stmts, n + 1)
  }

  /** The statements of a list rendered one after the other at depth `n`. */
  function RenderStmts(d: Dialect, ss: seq<Stmt>, n: nat): (r: seq<Line>)
    ensures |r| == StmtsLines(ss)
    decreases ss
  {
    if |ss| == 0 then [] else RenderStmt(d, ss[0], n) + RenderStmts(d, ss[1..], n)
  }

  function RetHeader(result: Option<Expr>): string {
    "Ret." + (if result.Some? then " expression =" else "")
  }

  /** `print` of every statement class. */
  function RenderStmt(d: Dialect, s: Stmt, n: nat): (r: seq<Line>)
    ensures |r| == StmtLines(s)
    decreases s, 1
  {
    match s
    case AsgnStmt(a) => RenderAsgn(d, a, n)
    case BlockStmt(b) => RenderBlock(d, b, n)
    case DeclStmt(decl) => RenderDecl(d, decl, n)
    case ExprStmt(e) => ExprLineCount(d, e, n); RenderExpr(d, e, n)
    case Ret(None) => [Line(n, RetHeader(None))]
    case Ret(Some(e)) =>
      ExprLineCount(d, e, n + 1);
      [Line(n, RetHeader(Some(e)))] + RenderExpr(d, e, n + 1)
    case While(cond, body) => RenderWhile(d, cond, body, n)
    case If(cond, ifBody, elseBody) => RenderIf(d, cond, ifBody, elseBody, n)
    case EmptyStmt => [Line(n, "EmptyStmt.")]
  }

  /** `ASTWhileNode.print`: `While.`, then the labelled condition and body. */
  function RenderWhile(d: Dialect, cond: Expr, body: Block, n: nat): (r: seq<Line>)
    ensures |r| == 3 + ExprLines(cond) + BlockLines(body) && r[0] == Line(n, "While.")
    decreases While(cond, body), 0
  {
    ExprLineCount(d, cond, n + 1);
    [Line(n, "While.")] + ([Line(n, "(While) condition =")] + RenderExpr(d, cond, n + 1)
                           + ([Line(n, "(While) body =")] + RenderBlock(d, body, n + 1)))
  }

  /** `ASTIfNode.print`: `If.`, then the labelled condition and both
      branches; a missing `else` prints as an empty block. */
  function RenderIf(d: Dialect, cond: Expr, ifBody: Block, elseBody: Block, n: nat): (r: seq<Line>)
    ensures |r| == 4 + ExprLines(cond) + BlockLines(ifBody) + BlockLines(elseBody) && r[0] == Line(n, "If.")
    decreases If(cond, ifBody, elseBody), 0
  {
    ExprLineCount(d, cond, n + 1);
    [Line(n, "If.")] + ([Line(n, "(If) condition =")] + RenderExpr(d, cond, n + 1)
                        + ([Line(n, "(If) if_body =")] + RenderBlock(d, ifBody, n + 1)
                           + ([Line(n, "(If) else_body =")] + RenderBlock(d, elseBody, n + 1))))
  }

  function FuncDefHeader(f: FuncDef): string {
    "FuncDef. " + DataTypeName(f.returnType) + " " + f.name
      + "(" + DataTypeName(f.paramType) + " " + f.paramName + ")"
  }

  /** `ASTFuncDefNode.print`: the signature, then the body at `n + 1`. */
  function RenderFuncDef(d: Dialect, f: FuncDef, n: nat): (r: seq<Line>)
    ensures |r| == 1 + BlockLines(f.body)
    ensures r[0] == Line(n, FuncDefHeader(f)) && r[1] == Line(n + 1, "Block.")
  {
    [Line(n, FuncDefHeader(f))] + RenderBlock(d, f.body, n + 1)
  }

  function RenderAsgns(d: Dialect, asgns: seq<Asgn>, n: nat): (r: seq<Line>)
    ensures |r| == AsgnsLines(asgns)
  {
    if |asgns| == 0 then [] else RenderAsgn(d, asgns[0], n) + RenderAsgns(d, asgns[1..], n)
  }

  function RenderDecls(d: Dialect, decls: seq<Decl>, n: nat): (r: seq<Line>)
    ensures |r| == |decls|
  {
    if |decls| == 0 then [] else RenderDecl(d, decls[0], n) + RenderDecls(d, decls[1..], n)
  }

  function RenderFuncDefs(d: Dialect, funcs: seq<FuncDef>, n: nat): (r: seq<Line>)
    ensures |r| == FuncDefsLines(funcs)
  {
    if |funcs| == 0 then [] else RenderFuncDef(d, funcs[0], n) + RenderFuncDefs(d, funcs[1..], n)
  }

  /** Whether `Root.print` writes the header of a section: Java tests
      `isEmpty()`, Python tests `!= []`. */
  predicate PrintsSectionHeader(d: Dialect, sectionIsEmpty: bool) {
    if d == Java then sectionIsEmpty else !sectionIsEmpty
  }

  /** A section header line at the root's own depth, when it prints. */
  function SectionHeader(d: Dialect, title: string, sectionIsEmpty: bool, n: nat): seq<Line> {
    if PrintsSectionHeader(d, sectionIsEmpty) then [Line(n, title)] else []
  }

  /** `ASTRootNode.print`: `Root.`, then assignments, declarations and
      functions in that order, each section preceded by its header line
      when the dialect prints it, each item at `n + 1`. */
  function RenderRoot(d: Dialect, root: Root, n: nat): (r: seq<Line>)
    ensures |r| == 1 + HeaderCount(d, root) + AsgnsLines(root.asgns) + |root.decls| + FuncDefsLines(root.funcs)
    ensures r[0] == Line(n, "Root.")
  {
    [Line(n, "Root.")]
      + SectionHeader(d, "Assignments:", |root.asgns| == 0, n) + RenderAsgns(d, root.asgns, n + 1)
      + SectionHeader(d, "Declarations:", |root.decls| == 0, n) + RenderDecls(d, root.decls, n + 1)
      + SectionHeader(d, "Functions:", |root.funcs| == 0, n) + RenderFuncDefs(d, root.funcs, n + 1)
  }

  /** `print(n)` of any node, line by line. */
  function NodeLines(d: Dialect, node: Node, n: nat): seq<Line> {
    match node
    case RootNode(root) => RenderRoot(d, root, n)
    case FuncDefNode(f) => RenderFuncDef(d, f, n)
    case StmtNode(s) => RenderStmt(d, s, n)
  }

  // ---------------------------------------------------------------------
  // The renderings of the nodes with children, one equation per kind, so
  // that a proof about one kind need not unfold the whole renderer

  lemma RExprRendering(d: Dialect, lhs: Expr, rhs: Expr, op: ROpType, n: nat)
    ensures RenderExpr(d, RExpr(lhs, rhs, op), n)
         == [Line(n, ExprHeader(d, RExpr(lhs, rhs, op)))]
            + ([Line(n, "(RExpr) LHS =")] + RenderExpr(d, lhs, n + 1)
               + ([Line(n, "(RExpr) RHS =")] + RenderExpr(d, rhs, n + 1)))
  {
  }

  lemma BExprRendering(d: Dialect, lhs: Expr, rhs: Expr, op: BOpType, n: nat)
    ensures RenderExpr(d, BExpr(lhs, rhs, op), n)
         == [Line(n, ExprHeader(d, BExpr(lhs, rhs, op)))]
            + ([Line(n, "(BExpr) LHS =")] + RenderExpr(d, lhs, n + 1)
               + ([Line(n, "(BExpr) RHS =")] + RenderExpr(d, rhs, n + 1)))
  {
  }

  lemma UExprRendering(d: Dialect, operand: Expr, op: UOpType, n: nat)
    ensures RenderExpr(d, UExpr(operand, op), n)
         == [Line(n, ExprHeader(d, UExpr(operand, op)))] + RenderExpr(d, operand, n + 1)
  {
  }

  lemma CallRendering(d: Dialect, name: string, p: Expr, n: nat)
    ensures RenderExpr(d, Call(name, Some(p)), n)
         == [Line(n, ExprHeader(d, Call(name, Some(p))))] + RenderExpr(d, p, n + 1)
  {
  }

  lemma RetRendering(d: Dialect, e: Expr, n: nat)
    ensures RenderStmt(d, Ret(Some(e)), n) == [Line(n, RetHeader(Some(e)))] + RenderExpr(d, e, n + 1)
  {
  }

  lemma WhileRendering(d: Dialect, cond: Expr, body: Block, n: nat)
    ensures RenderStmt(d, While(cond, body), n)
         == [Line(n, "While.")] + ([Line(n, "(While) condition =")] + RenderExpr(d, cond, n + 1)
                                   + ([Line(n, "(While) body =")] + RenderBlock(d, body, n + 1)))
  {
  }

  lemma IfRendering(d: Dialect, cond: Expr, ifBody: Block, elseBody: Block, n: nat)
    ensures RenderStmt(d, If(cond, ifBody, elseBody), n)
         == [Line(n, "If.")] + ([Line(n, "(If) condition =")] + RenderExpr(d, cond, n + 1)
                                + ([Line(n, "(If) if_body =")] + RenderBlock(d, ifBody, n + 1)
                                   + ([Line(n, "(If) else_body =")] + RenderBlock(d, elseBody, n + 1))))
  {
  }

  /** An expression prints one line per node and two operand labels per
      binary node, whatever the dialect. */
  lemma {:induction false} ExprLineCount(d: Dialect, e: Expr, n: nat)
    ensures |RenderExpr(d, e, n)| == ExprLines(e)
    decreases e
  {
    match e
    case RExpr(lhs, rhs, _) =>
      ExprLineCount(d, lhs, n + 1);
      ExprLineCount(d, rhs, n + 1);
    case BExpr(lhs, rhs, _) =>
      ExprLineCount(d, lhs, n + 1);
      ExprLineCount(d, rhs, n + 1);
    case UExpr(operand, _) =>
      ExprLineCount(d, operand, n + 1);
    case Call(_, Some(p)) =>
      ExprLineCount(d, p, n + 1);
    case _ =>
  }

  /** The text `print(n)` writes for a node: its lines, each spelled out
      with its indent. */
  function Render(d: Dialect, node: Node, n: nat): (r: seq<string>)
    ensures node.StmtNode? ==> |r| == StmtLines(node.stmt)
    ensures node.FuncDefNode? ==> |r| == 1 + BlockLines(node.func.body)
    ensures node.RootNode? ==>
              |r| == 1 + HeaderCount(d, node.root) + AsgnsLines(node.root.asgns)
                     + |node.root.decls| + FuncDefsLines(node.root.funcs)
  {
    Spelled(NodeLines(d, node, n))
  }
}

=== FILE: ast_render_facts.dfy ===
/** What the `print` methods of `ast.java` and `AST.py` promise about their
    output, node kind by node kind, stated over `AstRender`. */
module AstRenderFacts {
  import opened Wrappers
  import opened Strings
  import opened Ast
  import opened AstRender
  import opened AstRenderShape

  // ---------------------------------------------------------------------
  // Blocks

  /** The renderings of a statement list, one entry per statement. */
  function StmtRenderings(d: Dialect, ss: seq<Stmt>, n: nat): (parts: seq<seq<Line>>)
    ensures |parts| == |ss|
  {
    seq(|ss|, i requires 0 <= i < |ss| => RenderStmt(d, ss[i], n))
  }

  lemma {:induction false} StmtsAreConcatenated(d: Dialect, ss: seq<Stmt>, n: nat)
    ensures RenderStmts(d, ss, n) == Concat(StmtRenderings(d, ss, n))
    decreases |ss|
  {
    if |ss| != 0 {
      StmtsAreConcatenated(d, ss[1..], n);
      assert StmtRenderings(d, ss, n)[1..] == StmtRenderings(d, ss[1..], n);
    }
  }

  /** `Block.print(n)` writes `Block.` at depth `n`, then each statement's
      own rendering at depth `n + 1`, in list order and nothing else; so it
      has one line more than its statements together. */
  lemma BlockRendersEachStatement(d: Dialect, b: Block, n: nat)
    ensures RenderBlock(d, b, n)[0] == Line(n, "Block.")
    ensures RenderBlock(d, b, n)[1..] == Concat(StmtRenderings(d, b.stmts, n + 1))
    ensures |RenderBlock(d, b, n)| == 1 + SumLengths(StmtRenderings(d, b.stmts, n + 1))
  {
    StmtsAreConcatenated(d, b.stmts, n + 1);
    ConcatLength(StmtRenderings(d, b.stmts, n + 1));
  }

  /** Each statement of a block occupies its own run of lines, the `i`-th
      starting right after the lines of the statements before it. */
  lemma BlockStatementAt(d: Dialect, b: Block, n: nat, i: nat)
    requires i < |b.stmts|
    ensures var parts := StmtRenderings(d, b.stmts, n + 1);
            var start := 1 + SumLengths(parts[..i]);
            start + |parts[i]| <= |RenderBlock(d, b, n)|
            && RenderBlock(d, b, n)[start..start + |parts[i]|] == RenderStmt(d, b.stmts[i], n + 1)
  {
    var parts := StmtRenderings(d, b.stmts, n + 1);
    BlockRendersEachStatement(d, b, n);
    ConcatAt(parts, i);
    var k := SumLengths(parts[..i]);
    SliceAfterFirst(RenderBlock(d, b, n), k, k + |parts[i]|);
  }

  lemma SliceAfterFirst<T>(r: seq<T>, a: nat, b: nat)
    requires a <= b < |r|
    ensures r[1..][a..b] == r[1 + a..1 + b]
  {
  }

  // ---------------------------------------------------------------------
  // If, While, FuncDef

  /** An `If` built without an else-branch still prints an else section:
      its last two lines are the `(If) else_body =` label and the empty
      block's `Block.` one level deeper. */
  lemma IfWithoutElseRendersEmptyBlock(d: Dialect, cond: Expr, ifBody: Block, n: nat)
    ensures var r := RenderStmt(d, MakeIf(cond, ifBody, None), n);
            |r| >= 5
            && r[|r| - 2] == Line(n, "(If) else_body =")
            && r[|r| - 1] == Line(n + 1, "Block.")
  {
    var e := RenderBlock(d, Block([]), n + 1);
    EmptyBlockRendering(d, n + 1);
    IfRendering(d, cond, ifBody, Block([]), n);
    TailPieces(Line(n, "If."), Line(n, "(If) condition ="), RenderExpr(d, cond, n + 1),
               Line(n, "(If) if_body ="), RenderBlock(d, ifBody, n + 1), Line(n, "(If) else_body ="), e);
  }

  lemma EmptyBlockRendering(d: Dialect, n: nat)
    ensures RenderBlock(d, Block([]), n) == [Line(n, "Block.")]
  {
    assert RenderStmts(d, [], n + 1) == [];
    assert [Line(n, "Block.")] + [] == [Line(n, "Block.")];
  }

  /** The general form: the else section renders the stored block. */
  lemma IfRendersElseBlockLast(d: Dialect, cond: Expr, ifBody: Block, elseBody: Option<Block>, n: nat)
    ensures var r := RenderStmt(d, MakeIf(cond, ifBody, elseBody), n);
            var e := RenderBlock(d, elseBody.GetOr(Block([])), n + 1);
            |r| > |e| && r[|r| - |e|..] == e && r[|r| - |e| - 1] == Line(n, "(If) else_body =")
  {
    var e := RenderBlock(d, elseBody.GetOr(Block([])), n + 1);
    IfRendering(d, cond, ifBody, elseBody.GetOr(Block([])), n);
    TailPieces(Line(n, "If."), Line(n, "(If) condition ="), RenderExpr(d, cond, n + 1),
               Line(n, "(If) if_body ="), RenderBlock(d, ifBody, n + 1), Line(n, "(If) else_body ="), e);
  }

  /** Where the last piece of `[h] + ([a] + c + ([b] + t + ([x] + e)))` lies. */
  lemma TailPieces<T>(h: T, a: T, c: seq<T>, b: T, t: seq<T>, x: T, e: seq<T>)
    ensures var s := [h] + ([a] + c + ([b] + t + ([x] + e)));
            |s| >= 4 + |e| && s[|s| - |e|..] == e && s[|s| - |e| - 1] == x
  {
    var s := [h] + ([a] + c + ([b] + t + ([x] + e)));
    assert s[|s| - |e| - 1..] == [x] + e;
  }

  // ---------------------------------------------------------------------
  // Optional children

  predicate EndsWith(s: string, suffix: string) {
    |suffix| <= |s| && s[|s| - |suffix|..] == suffix
  }

  lemma EndsWithAppend(s: string, suffix: string)
    ensures EndsWith(s + suffix, suffix)
  {
    assert (s + suffix)[|s|..] == suffix;
  }

  /** A text that lacks one of the characters of `suffix` cannot end with it. */
  lemma MissingCharNotSuffix(s: string, suffix: string, k: nat)
    requires k < |suffix| && suffix[k] !in s
    ensures !EndsWith(s, suffix)
  {
    if |suffix| <= |s| {
      assert s[|s| - |suffix|..][k] == s[|s| - |suffix| + k];
    }
  }

  /** A text whose last character differs from that of `suffix` does not end with it. */
  lemma LastCharNotSuffix(s: string, suffix: string)
    requires |s| > 0 && |suffix| > 0 && s[|s| - 1] != suffix[|suffix| - 1]
    ensures !EndsWith(s, suffix)
  {
    if |suffix| <= |s| {
      assert s[|s| - |suffix|..][|suffix| - 1] == s[|s| - 1];
    }
  }

  /** For any callee name, a call writes child lines exactly when it has an
      argument: the header `Call. name, parameter =` and then the argument
      one level deeper, or else the single line `Call. name`. */
  lemma CallRendersParameter(d: Dialect, name: string, param: Option<Expr>, n: nat)
    ensures var r := RenderExpr(d, Call(name, param), n);
            && (|r| > 1 <==> param.Some?)
            && (param.Some? ==> r == [Line(n, "Call. " + name + ", parameter =")]
                                     + RenderExpr(d, param.value, n + 1))
            && (param.None? ==> r == [Line(n, "Call. " + name)])
  {
    if param.None? {
      assert "Call. " + name + "" == "Call. " + name;
    }
  }

  /** A call writes child lines exactly when it has an argument, and (for
      a callee name without a comma, as every MiniC identifier is) its
      header ends with `, parameter =` exactly then. */
  lemma CallParameterShown(d: Dialect, name: string, param: Option<Expr>, n: nat)
    requires ',' !in name
    ensures var r := RenderExpr(d, Call(name, param), n);
            && (|r| > 1 <==> param.Some?)
            && (EndsWith(r[0].text, ", parameter =") <==> param.Some?)
            && (param.Some? ==> r[1..] == RenderExpr(d, param.value, n + 1))
            && (param.None? ==> r == [Line(n, "Call. " + name)])
  {
    CallRendersParameter(d, name, param, n);
    var r := RenderExpr(d, Call(name, param), n);
    if param.Some? {
      assert r[0].text == "Call. " + name + ", parameter =";
      EndsWithAppend("Call. " + name, ", parameter =");
    } else {
      assert r[0].text == "Call. " + name;
      assert ',' !in r[0].text;
      MissingCharNotSuffix(r[0].text, ", parameter =", 0);
    }
  }

  /** A return writes child lines exactly when it has an expression, and
      its header is `Ret. expression =` exactly then (`Ret.` otherwise). */
  lemma RetExpressionShown(d: Dialect, result: Option<Expr>, n: nat)
    ensures var r := RenderStmt(d, Ret(result), n);
            && (|r| > 1 <==> result.Some?)
            && (EndsWith(r[0].text, " expression =") <==> result.Some?)
            && (result.Some? ==> r[1..] == RenderExpr(d, result.value, n + 1))
  {
    var r := RenderStmt(d, Ret(result), n);
    if result.Some? {
      assert r[0].text == "Ret." + " expression =";
      EndsWithAppend("Ret.", " expression =");
    } else {
      assert r[0].text == "Ret.";
      LastCharNotSuffix(r[0].text, " expression =");
    }
  }

  /** An assignment writes its `Asgn. lhs =` header and then exactly the
      right-hand side's lines, one level deeper. */
  lemma AsgnRendersRhs(d: Dialect, a: Asgn, n: nat)
    ensures var r := RenderAsgn(d, a, n);
            r == [Line(n, AsgnHeader(a))] + RenderExpr(d, a.rhs, n + 1)
  {
  }

  /** A function definition writes its signature and then exactly its
      body's lines, one level deeper. */
  lemma FuncDefRendersBody(d: Dialect, f: FuncDef, n: nat)
    ensures var r := RenderFuncDef(d, f, n);
            r == [Line(n, FuncDefHeader(f))] + RenderBlock(d, f.body, n + 1)
  {
  }

  // ---------------------------------------------------------------------
  // Binary operands

  /** A relational expression prints its header, the `LHS =` label, the
      left operand one level deeper, the `RHS =` label, then the right
      operand; the left operand always comes first. */
  lemma RExprOperandsInOrder(d: Dialect, lhs: Expr, rhs: Expr, op: ROpType, n: nat)
    ensures var r := RenderExpr(d, RExpr(lhs, rhs, op), n);
            var l := RenderExpr(d, lhs, n + 1);
            var k := 2 + |l|;
            k < |r|
            && r[1] == Line(n, "(RExpr) LHS =")
            && r[2..k] == l
            && r[k] == Line(n, "(RExpr) RHS =")
            && r[k + 1..] == RenderExpr(d, rhs, n + 1)
  {
    RExprRendering(d, lhs, rhs, op, n);
    PairPieces(Line(n, ExprHeader(d, RExpr(lhs, rhs, op))), Line(n, "(RExpr) LHS ="), RenderExpr(d, lhs, n + 1),
               Line(n, "(RExpr) RHS ="), RenderExpr(d, rhs, n + 1));
  }

  /** A binary expression prints its header, the `LHS =` label, the
      left operand one level deeper, the `RHS =` label, then the right
      operand; the left operand always comes first. */
  lemma BExprOperandsInOrder(d: Dialect, lhs: Expr, rhs: Expr, op: BOpType, n: nat)
    ensures var r := RenderExpr(d, BExpr(lhs, rhs, op), n);
            var l := RenderExpr(d, lhs, n + 1);
            var k := 2 + |l|;
            k < |r|
            && r[1] == Line(n, "(BExpr) LHS =")
            && r[2..k] == l
            && r[k] == Line(n, "(BExpr) RHS =")
            && r[k + 1..] == RenderExpr(d, rhs, n + 1)
  {
    BExprRendering(d, lhs, rhs, op, n);
    PairPieces(Line(n, ExprHeader(d, BExpr(lhs, rhs, op))), Line(n, "(BExpr) LHS ="), RenderExpr(d, lhs, n + 1),
               Line(n, "(BExpr) RHS ="), RenderExpr(d, rhs, n + 1));
  }

  /** Where each piece of `[h] + ([a] + l + ([b] + r))` lies. */
  lemma PairPieces<T>(h: T, a: T, l: seq<T>, b: T, r: seq<T>)
    ensures var s := [h] + ([a] + l + ([b] + r));
            && 2 + |l| < |s| && s[1] == a && s[2..2 + |l|] == l
            && s[2 + |l|] == b && s[3 + |l|..] == r
  {
    var s := [h] + ([a] + l + ([b] + r));
    assert s[2..2 + |l|] == l;
    assert s[3 + |l|..] == r;
  }

  // ---------------------------------------------------------------------
  // Declarations and one-line nodes

  /** A variable declaration's line reads `VarDecl. extern ` exactly when
      the declaration is extern. */
  lemma VarDeclExternShown(d: Dialect, isExtern: bool, t: DataType, name: string, n: nat)
    ensures var r := RenderDecl(d, VarDecl(isExtern, t, name), n);
            |r| == 1 && r[0].depth == n && ("VarDecl. extern " <= r[0].text <==> isExtern)
  {
    var h := DeclHeader(d, VarDecl(isExtern, t, name));
    var p := "VarDecl. extern ";
    if isExtern {
      assert h == p + (DataTypeName(t) + " " + name);
    } else {
      assert h[9] == DataTypeName(t)[0];
      assert IsUpper(h[9]) && !IsUpper(p[9]);
    }
  }

  // ---------------------------------------------------------------------
  // Root sections

  function AssignmentsHeader(n: nat): Line { Line(n, "Assignments:") }
  function DeclarationsHeader(n: nat): Line { Line(n, "Declarations:") }
  function FunctionsHeader(n: nat): Line { Line(n, "Functions:") }

  /** A section header sits at the root's own depth, so it is none of the
      lines of the root's items, which are one level deeper. */
  lemma {:induction false} NotInDeeper(lines: seq<Line>, n: nat, title: string)
    requires Indented(lines, n + 1)
    ensures Line(n, title) !in lines
    decreases |lines|
  {
    if |lines| != 0 {
      NotInDeeper(lines[1..], n, title);
      assert lines == [lines[0]] + lines[1..];
    }
  }

  /** A line at the root's depth is not among the lines of the root's
      items, which are rendered one level deeper. */
  lemma NotInItems(d: Dialect, root: Root, n: nat, title: string)
    ensures Line(n, title) !in RenderAsgns(d, root.asgns, n + 1)
    ensures Line(n, title) !in RenderDecls(d, root.decls, n + 1)
    ensures Line(n, title) !in RenderFuncDefs(d, root.funcs, n + 1)
  {
    AsgnsIndented(d, root.asgns, n + 1);
    DeclsIndented(d, root.decls, n + 1);
    FuncDefsIndented(d, root.funcs, n + 1);
    NotInDeeper(RenderAsgns(d, root.asgns, n + 1), n, title);
    NotInDeeper(RenderDecls(d, root.decls, n + 1), n, title);
    NotInDeeper(RenderFuncDefs(d, root.funcs, n + 1), n, title);
  }

  /** The root's rendering cut into its seven pieces, and the fact that each
      section title occurs in no piece but its own. */
  lemma RootPieces(d: Dialect, root: Root, n: nat)
    ensures var a := SectionHeader(d, "Assignments:", |root.asgns| == 0, n);
            var aa := RenderAsgns(d, root.asgns, n + 1);
            var c := SectionHeader(d, "Declarations:", |root.decls| == 0, n);
            var cc := RenderDecls(d, root.decls, n + 1);
            var f := SectionHeader(d, "Functions:", |root.funcs| == 0, n);
            var ff := RenderFuncDefs(d, root.funcs, n + 1);
            && RenderRoot(d, root, n) == [Line(n, "Root.")] + a + aa + c + cc + f + ff
            && AssignmentsHeader(n) !in [Line(n, "Root.")] + aa + c + cc + f + ff
            && DeclarationsHeader(n) !in [Line(n, "Root.")] + a + aa + cc + f + ff
            && FunctionsHeader(n) !in [Line(n, "Root.")] + a + aa + c + cc + ff
  {
    var a := SectionHeader(d, "Assignments:", |root.asgns| == 0, n);
    var aa := RenderAsgns(d, root.asgns, n + 1);
    var c := SectionHeader(d, "Declarations:", |root.decls| == 0, n);
    var cc := RenderDecls(d, root.decls, n + 1);
    var f := SectionHeader(d, "Functions:", |root.funcs| == 0, n);
    var ff := RenderFuncDefs(d, root.funcs, n + 1);
    var top := [Line(n, "Root.")];
    NotInItems(d, root, n, "Assignments:");
    NotInItems(d, root, n, "Declarations:");
    NotInItems(d, root, n, "Functions:");
    NotInSix(AssignmentsHeader(n), top, aa, c, cc, f, ff);
    NotInSix(DeclarationsHeader(n), top, a, aa, cc, f, ff);
    NotInSix(FunctionsHeader(n), top, a, aa, c, cc, ff);
  }

  lemma NotInSix<T>(x: T, p0: seq<T>, p1: seq<T>, p2: seq<T>, p3: seq<T>, p4: seq<T>, p5: seq<T>)
    requires x !in p0 && x !in p1 && x !in p2 && x !in p3 && x !in p4 && x !in p5
    ensures x !in p0 + p1 + p2 + p3 + p4 + p5
  {
  }

  /** `Root.print` writes a section's header line exactly when the dialect's
      test on that list holds: when it is empty in Java, when it is
      non-empty in Python. */
  lemma RootSectionHeaders(d: Dialect, root: Root, n: nat)
    ensures var r := RenderRoot(d, root, n);
            && (AssignmentsHeader(n) in r <==> PrintsSectionHeader(d, |root.asgns| == 0))
            && (DeclarationsHeader(n) in r <==> PrintsSectionHeader(d, |root.decls| == 0))
            && (FunctionsHeader(n) in r <==> PrintsSectionHeader(d, |root.funcs| == 0))
  {
    RootPieces(d, root, n);
  }

  /** Where the `Assignments:` header can stand: right after `Root.`. */
  lemma AssignmentsHeaderAt(d: Dialect, root: Root, n: nat, i: nat)
    requires i < |RenderRoot(d, root, n)| && RenderRoot(d, root, n)[i] == AssignmentsHeader(n)
    ensures i == 1 && PrintsSectionHeader(d, |root.asgns| == 0)
  {
    var a := SectionHeader(d, "Assignments:", |root.asgns| == 0, n);
    var aa := RenderAsgns(d, root.asgns, n + 1);
    var c := SectionHeader(d, "Declarations:", |root.decls| == 0, n);
    var cc := RenderDecls(d, root.decls, n + 1);
    var f := SectionHeader(d, "Functions:", |root.funcs| == 0, n);
    var ff := RenderFuncDefs(d, root.funcs, n + 1);
    RootPieces(d, root, n);
    Regroup([Line(n, "Root.")], a, aa, c, cc, f, ff);
    SlotOf(RenderRoot(d, root, n), [Line(n, "Root.")], a, aa + c + cc + f + ff, i);
  }

  /** Where the `Declarations:` header can stand: right after the
      assignments section. */
  lemma DeclarationsHeaderAt(d: Dialect, root: Root, n: nat, j: nat)
    requires j < |RenderRoot(d, root, n)| && RenderRoot(d, root, n)[j] == DeclarationsHeader(n)
    ensures var a := SectionHeader(d, "Assignments:", |root.asgns| == 0, n);
            j == 1 + |a| + |RenderAsgns(d, root.asgns, n + 1)| && PrintsSectionHeader(d, |root.decls| == 0)
  {
    var a := SectionHeader(d, "Assignments:", |root.asgns| == 0, n);
    var aa := RenderAsgns(d, root.asgns, n + 1);
    var c := SectionHeader(d, "Declarations:", |root.decls| == 0, n);
    var cc := RenderDecls(d, root.decls, n + 1);
    var f := SectionHeader(d, "Functions:", |root.funcs| == 0, n);
    var ff := RenderFuncDefs(d, root.funcs, n + 1);
    RootPieces(d, root, n);
    Regroup([Line(n, "Root.")], a, aa, c, cc, f, ff);
    SlotOf(RenderRoot(d, root, n), [Line(n, "Root.")] + a + aa, c, cc + f + ff, j);
  }

  /** Where the `Functions:` header can stand: right after the declarations
      section. */
  lemma FunctionsHeaderAt(d: Dialect, root: Root, n: nat, k: nat)
    requires k < |RenderRoot(d, root, n)| && RenderRoot(d, root, n)[k] == FunctionsHeader(n)
    ensures var a := SectionHeader(d, "Assignments:", |root.asgns| == 0, n);
            var c := SectionHeader(d, "Declarations:", |root.decls| == 0, n);
            k == 1 + |a| + |RenderAsgns(d, root.asgns, n + 1)| + |c| + |RenderDecls(d, root.decls, n + 1)|
            && PrintsSectionHeader(d, |root.funcs| == 0)
  {
    var a := SectionHeader(d, "Assignments:", |root.asgns| == 0, n);
    var aa := RenderAsgns(d, root.asgns, n + 1);
    var c := SectionHeader(d, "Declarations:", |root.decls| == 0, n);
    var cc := RenderDecls(d, root.decls, n + 1);
    var f := SectionHeader(d, "Functions:", |root.funcs| == 0, n);
    var ff := RenderFuncDefs(d, root.funcs, n + 1);
    RootPieces(d, root, n);
    SlotOf(RenderRoot(d, root, n), [Line(n, "Root.")] + a + aa + c + cc, f, ff, k);
  }

  /** The sections come out as assignments, declarations, functions,
      whatever the order of the constructor's fields: a printed
      `Assignments:` header precedes a printed `Declarations:` header,
      which precedes a printed `Functions:` header. */
  lemma RootSectionOrder(d: Dialect, root: Root, n: nat, i: nat, j: nat, k: nat)
    requires var r := RenderRoot(d, root, n);
             i < |r| && j < |r| && k < |r|
             && r[i] == AssignmentsHeader(n) && r[j] == DeclarationsHeader(n) && r[k] == FunctionsHeader(n)
    ensures i < j < k
  {
    AssignmentsHeaderAt(d, root, n, i);
    DeclarationsHeaderAt(d, root, n, j);
    FunctionsHeaderAt(d, root, n, k);
  }

  /** A line that occurs neither before nor after a one-or-zero-line slot
      can only sit in that slot. */
  lemma SlotOf(r: seq<Line>, before: seq<Line>, slot: seq<Line>, after: seq<Line>, i: nat)
    requires r == before + slot + after && |slot| <= 1 && i < |r|
    requires r[i] !in before && r[i] !in after
    ensures |slot| == 1 && i == |before|
  {
  }

  /** The three ways the root lemmas cut seven pieces. */
  lemma Regroup<T>(p: seq<T>, a: seq<T>, aa: seq<T>, c: seq<T>, cc: seq<T>, f: seq<T>, ff: seq<T>)
    ensures p + a + aa + c + cc + f + ff == p + a + (aa + c + cc + f + ff)
    ensures p + a + aa + c + cc + f + ff == (p + a + aa) + c + (cc + f + ff)
  {
  }
}

=== FILE: ast_render_shape.dfy ===
/** The layout every rendering keeps: a node rendered at depth `n` starts
    with its header line at depth `n` (a capital letter right after `n`
    indent units), and every later line is either a `(Kind) ...` label at
    depth `n` or a line of a child rendered deeper. No later line opens a
    second node at depth `n`, which is what lets a reader of the output
    tell where one node ends and the next begins. */
module AstRenderShape {
  import opened Wrappers
  import opened Strings
  import opened Ast
  import opened AstRender

  /** A header, then one child node rendered a level deeper. */
  lemma NestShape(n: nat, header: string, child: seq<Line>)
    requires |header| > 0 && IsUpper(header[0])
    requires NodeShape(child, n + 1)
    ensures NodeShape([Line(n, header)] + child, n)
  {
    NestNode(child, n);
    Assemble(n, header, child);
  }

  /** A header, then two captioned children rendered a level deeper. */
  lemma PairShape(n: nat, header: string, c1: string, a: seq<Line>, c2: string, b: seq<Line>)
    requires |header| > 0 && IsUpper(header[0])
    requires |c1| > 0 && c1[0] == '(' && |c2| > 0 && c2[0] == '('
    requires NodeShape(a, n + 1) && NodeShape(b, n + 1)
    ensures NodeShape([Line(n, header)] + ([Line(n, c1)] + a + ([Line(n, c2)] + b)), n)
  {
    LabelledChild(n, c1, a);
    LabelledChild(n, c2, b);
    BelowAppend([Line(n, c1)] + a, [Line(n, c2)] + b, n);
    Assemble(n, header, [Line(n, c1)] + a + ([Line(n, c2)] + b));
  }

  /** Every expression renders as a node at its depth. */
  lemma {:induction false} ExprShape(d: Dialect, e: Expr, n: nat)
    ensures NodeShape(RenderExpr(d, e, n), n)
    decreases e
  {
    match e
    case RExpr(lhs, rhs, op) =>
      ExprShape(d, lhs, n + 1);
      ExprShape(d, rhs, n + 1);
      RExprLayout(d, lhs, rhs, op, n);
    case BExpr(lhs, rhs, op) =>
      ExprShape(d, lhs, n + 1);
      ExprShape(d, rhs, n + 1);
      BExprLayout(d, lhs, rhs, op, n);
    case UExpr(operand, op) =>
      ExprShape(d, operand, n + 1);
      UExprLayout(d, operand, op, n);
    case Call(name, Some(p)) =>
      ExprShape(d, p, n + 1);
      CallLayout(d, name, p, n);
    case _ => LeafShape(d, e, n);
  }

  lemma RExprLayout(d: Dialect, lhs: Expr, rhs: Expr, op: ROpType, n: nat)
    requires NodeShape(RenderExpr(d, lhs, n + 1), n + 1)
    requires NodeShape(RenderExpr(d, rhs, n + 1), n + 1)
    ensures NodeShape(RenderExpr(d, RExpr(lhs, rhs, op), n), n)
  {
    RExprRendering(d, lhs, rhs, op, n);
    PairShape(n, ExprHeader(d, RExpr(lhs, rhs, op)), "(RExpr) LHS =", RenderExpr(d, lhs, n + 1),
              "(RExpr) RHS =", RenderExpr(d, rhs, n + 1));
  }

  lemma BExprLayout(d: Dialect, lhs: Expr, rhs: Expr, op: BOpType, n: nat)
    requires NodeShape(RenderExpr(d, lhs, n + 1), n + 1)
    requires NodeShape(RenderExpr(d, rhs, n + 1), n + 1)
    ensures NodeShape(RenderExpr(d, BExpr(lhs, rhs, op), n), n)
  {
    BExprRendering(d, lhs, rhs, op, n);
    PairShape(n, ExprHeader(d, BExpr(lhs, rhs, op)), "(BExpr) LHS =", RenderExpr(d, lhs, n + 1),
              "(BExpr) RHS =", RenderExpr(d, rhs, n + 1));
  }

  lemma UExprLayout(d: Dialect, operand: Expr, op: UOpType, n: nat)
    requires NodeShape(RenderExpr(d, operand, n + 1), n + 1)
    ensures NodeShape(RenderExpr(d, UExpr(operand, op), n), n)
  {
    UExprRendering(d, operand, op, n);
    NestShape(n, ExprHeader(d, UExpr(operand, op)), RenderExpr(d, operand, n + 1));
  }

  lemma CallLayout(d: Dialect, name: string, p: Expr, n: nat)
    requires NodeShape(RenderExpr(d, p, n + 1), n + 1)
    ensures NodeShape(RenderExpr(d, Call(name, Some(p)), n), n)
  {
    CallRendering(d, name, p, n);
    NestShape(n, ExprHeader(d, Call(name, Some(p))), RenderExpr(d, p, n + 1));
  }

  /** Expressions with nothing below their header. */
  lemma LeafShape(d: Dialect, e: Expr, n: nat)
    requires !(e.RExpr? || e.BExpr? || e.UExpr? || (e.Call? && e.param.Some?))
    ensures NodeShape(RenderExpr(d, e, n), n)
  {
    assert RenderExpr(d, e, n) == [Line(n, ExprHeader(d, e))] + [];
    Assemble(n, ExprHeader(d, e), []);
  }

  lemma DeclShape(d: Dialect, decl: Decl, n: nat)
    ensures NodeShape(RenderDecl(d, decl, n), n) && |RenderDecl(d, decl, n)| == 1
  {
    Assemble(n, DeclHeader(d, decl), []);
  }

  lemma AsgnShape(d: Dialect, a: Asgn, n: nat)
    ensures NodeShape(RenderAsgn(d, a, n), n)
  {
    ExprShape(d, a.rhs, n + 1);
    AsgnLayout(d, a, n);
  }

  lemma AsgnLayout(d: Dialect, a: Asgn, n: nat)
    requires NodeShape(RenderExpr(d, a.rhs, n + 1), n + 1)
    ensures NodeShape(RenderAsgn(d, a, n), n)
  {
    NestShape(n, AsgnHeader(a), RenderExpr(d, a.rhs, n + 1));
  }

  lemma {:induction false} BlockShape(d: Dialect, b: Block, n: nat)
    ensures NodeShape(RenderBlock(d, b, n), n)
    decreases b, 1
  {
    var body := RenderStmts(d, b.stmts, n + 1);
    StmtsIndented(d, b.stmts, n + 1);
    Nest(body, n);
    Assemble(n, "Block.", body);
  }

  lemma {:induction false} StmtsIndented(d: Dialect, ss: seq<Stmt>, n: nat)
    ensures Indented(RenderStmts(d, ss, n), n)
    decreases ss, 0
  {
    if |ss| != 0 {
      StmtShape(d, ss[0], n);
      StmtsIndented(d, ss[1..], n);
      ShapeIndented(RenderStmt(d, ss[0], n), n);
      IndentedAppend(RenderStmt(d, ss[0], n), RenderStmts(d, ss[1..], n), n);
    }
  }

  lemma {:induction false} StmtShape(d: Dialect, s: Stmt, n: nat)
    ensures NodeShape(RenderStmt(d, s, n), n)
    decreases s, 2
  {
    match s
    case AsgnStmt(a) => AsgnShape(d, a, n);
    case BlockStmt(b) => BlockShape(d, b, n);
    case DeclStmt(decl) => DeclShape(d, decl, n);
    case ExprStmt(e) => ExprShape(d, e, n);
    case Ret(None) =>
      Assemble(n, RetHeader(None), []);
    case Ret(Some(e)) => RetShape(d, e, n);
    case While(cond, body) => WhileShape(d, cond, body, n);
    case If(cond, ifBody, elseBody) => IfShape(d, cond, ifBody, elseBody, n);
    case EmptyStmt =>
      Assemble(n, "EmptyStmt.", []);
  }

  lemma RetShape(d: Dialect, e: Expr, n: nat)
    ensures NodeShape(RenderStmt(d, Ret(Some(e)), n), n)
  {
    ExprShape(d, e, n + 1);
    RetLayout(d, e, n);
  }

  lemma RetLayout(d: Dialect, e: Expr, n: nat)
    requires NodeShape(RenderExpr(d, e, n + 1), n + 1)
    ensures NodeShape(RenderStmt(d, Ret(Some(e)), n), n)
  {
    RetRendering(d, e, n);
    NestShape(n, RetHeader(Some(e)), RenderExpr(d, e, n + 1));
  }

  lemma {:induction false} WhileShape(d: Dialect, cond: Expr, body: Block, n: nat)
    ensures NodeShape(RenderStmt(d, While(cond, body), n), n)
    decreases While(cond, body), 1
  {
    ExprShape(d, cond, n + 1);
    BlockShape(d, body, n + 1);
    WhileLayout(d, cond, body, n);
  }

  lemma WhileLayout(d: Dialect, cond: Expr, body: Block, n: nat)
    requires NodeShape(RenderExpr(d, cond, n + 1), n + 1)
    requires NodeShape(RenderBlock(d, body, n + 1), n + 1)
    ensures NodeShape(RenderStmt(d, While(cond, body), n), n)
  {
    WhileRendering(d, cond, body, n);
    PairShape(n, "While.", "(While) condition =", RenderExpr(d, cond, n + 1),
              "(While) body =", RenderBlock(d, body, n + 1));
  }

  lemma {:induction false} IfShape(d: Dialect, cond: Expr, ifBody: Block, elseBody: Block, n: nat)
    ensures NodeShape(RenderStmt(d, If(cond, ifBody, elseBody), n), n)
    decreases If(cond, ifBody, elseBody), 1
  {
    ExprShape(d, cond, n + 1);
    BlockShape(d, ifBody, n + 1);
    BlockShape(d, elseBody, n + 1);
    IfLayout(d, cond, ifBody, elseBody, n);
  }

  lemma IfLayout(d: Dialect, cond: Expr, ifBody: Block, elseBody: Block, n: nat)
    requires NodeShape(RenderExpr(d, cond, n + 1), n + 1)
    requires NodeShape(RenderBlock(d, ifBody, n + 1), n + 1)
    requires NodeShape(RenderBlock(d, elseBody, n + 1), n + 1)
    ensures NodeShape(RenderStmt(d, If(cond, ifBody, elseBody), n), n)
  {
    var c := RenderExpr(d, cond, n + 1);
    var t := RenderBlock(d, ifBody, n + 1);
    var e := RenderBlock(d, elseBody, n + 1);
    IfRendering(d, cond, ifBody, elseBody, n);
    LabelledChild(n, "(If) condition =", c);
    LabelledChild(n, "(If) if_body =", t);
    LabelledChild(n, "(If) else_body =", e);
    BelowAppend([Line(n, "(If) if_body =")] + t, [Line(n, "(If) else_body =")] + e, n);
    BelowAppend([Line(n, "(If) condition =")] + c,
                [Line(n, "(If) if_body =")] + t + ([Line(n, "(If) else_body =")] + e), n);
    Assemble(n, "If.", [Line(n, "(If) condition =")] + c
                       + ([Line(n, "(If) if_body =")] + t + ([Line(n, "(If) else_body =")] + e)));
  }

  lemma FuncDefShape(d: Dialect, f: FuncDef, n: nat)
    ensures NodeShape(RenderFuncDef(d, f, n), n)
  {
    BlockShape(d, f.body, n + 1);
    FuncDefLayout(d, f, n);
  }

  lemma FuncDefLayout(d: Dialect, f: FuncDef, n: nat)
    requires NodeShape(RenderBlock(d, f.body, n + 1), n + 1)
    ensures NodeShape(RenderFuncDef(d, f, n), n)
  {
    NestShape(n, FuncDefHeader(f), RenderBlock(d, f.body, n + 1));
  }

  lemma {:induction false} AsgnsIndented(d: Dialect, asgns: seq<Asgn>, n: nat)
    ensures Indented(RenderAsgns(d, asgns, n), n)
    decreases |asgns|
  {
    if |asgns| != 0 {
      AsgnShape(d, asgns[0], n);
      AsgnsIndented(d, asgns[1..], n);
      ShapeIndented(RenderAsgn(d, asgns[0], n), n);
      IndentedAppend(RenderAsgn(d, asgns[0], n), RenderAsgns(d, asgns[1..], n), n);
    }
  }

  lemma {:induction false} DeclsIndented(d: Dialect, decls: seq<Decl>, n: nat)
    ensures Indented(RenderDecls(d, decls, n), n)
    decreases |decls|
  {
    if |decls| != 0 {
      DeclShape(d, decls[0], n);
      DeclsIndented(d, decls[1..], n);
      ShapeIndented(RenderDecl(d, decls[0], n), n);
      IndentedAppend(RenderDecl(d, decls[0], n), RenderDecls(d, decls[1..], n), n);
    }
  }

  lemma {:induction false} FuncDefsIndented(d: Dialect, funcs: seq<FuncDef>, n: nat)
    ensures Indented(RenderFuncDefs(d, funcs, n), n)
    decreases |funcs|
  {
    if |funcs| != 0 {
      FuncDefShape(d, funcs[0], n);
      FuncDefsIndented(d, funcs[1..], n);
      ShapeIndented(RenderFuncDef(d, funcs[0], n), n);
      IndentedAppend(RenderFuncDef(d, funcs[0], n), RenderFuncDefs(d, funcs[1..], n), n);
    }
  }

  lemma SectionIndented(d: Dialect, title: string, sectionIsEmpty: bool, n: nat)
    requires |title| > 0 && IsUpper(title[0])
    ensures Indented(SectionHeader(d, title, sectionIsEmpty, n), n)
  {
    assert [Line(n, title)][1..] == [];
  }

  lemma Deepen(lines: seq<Line>, n: nat)
    requires Indented(lines, n + 1)
    ensures Indented(lines, n)
  {
    Nest(lines, n);
    BelowIndented(lines, n);
  }

  /** A root opens with its own header and never writes above its depth
      (its section headers sit at its own depth, not below it, so the
      rendering of a root is not a `NodeShape`). */
  lemma RootShape(d: Dialect, root: Root, n: nat)
    ensures var r := RenderRoot(d, root, n);
            |r| >= 1 && r[0] == Line(n, "Root.") && IsHeaderAt(r[0], n) && Indented(r, n)
  {
    var a := SectionHeader(d, "Assignments:", |root.asgns| == 0, n);
    var aa := RenderAsgns(d, root.asgns, n + 1);
    var c := SectionHeader(d, "Declarations:", |root.decls| == 0, n);
    var cc := RenderDecls(d, root.decls, n + 1);
    var f := SectionHeader(d, "Functions:", |root.funcs| == 0, n);
    var ff := RenderFuncDefs(d, root.funcs, n + 1);
    SectionIndented(d, "Assignments:", |root.asgns| == 0, n);
    SectionIndented(d, "Declarations:", |root.decls| == 0, n);
    SectionIndented(d, "Functions:", |root.funcs| == 0, n);
    AsgnsIndented(d, root.asgns, n + 1);
    DeclsIndented(d, root.decls, n + 1);
    FuncDefsIndented(d, root.funcs, n + 1);
    Deepen(aa, n);
    Deepen(cc, n);
    Deepen(ff, n);
    RootLayout(Line(n, "Root."), a, aa, c, cc, f, ff, n);
  }

  /** A header line followed by six runs of lines at depth `n` or deeper. */
  lemma RootLayout(h: Line, a: seq<Line>, aa: seq<Line>, c: seq<Line>, cc: seq<Line>,
                   f: seq<Line>, ff: seq<Line>, n: nat)
    requires h.depth == n && Plain(h)
    requires Indented(a, n) && Indented(aa, n) && Indented(c, n)
    requires Indented(cc, n) && Indented(f, n) && Indented(ff, n)
    ensures var r := [h] + a + aa + c + cc + f + ff;
            |r| >= 1 && r[0] == h && Indented(r, n)
  {
    assert [h][1..] == [];
    IndentedAppend([h], a, n);
    IndentedAppend([h] + a, aa, n);
    IndentedAppend([h] + a + aa, c, n);
    IndentedAppend([h] + a + aa + c, cc, n);
    IndentedAppend([h] + a + aa + c + cc, f, n);
    IndentedAppend([h] + a + aa + c + cc + f, ff, n);
  }

  /** Every node's rendering opens with a header at its depth and stays at
      or below that depth. For a function or a statement no later line opens
      another node at that depth: the rest are `(Kind)` labels there or
      children's lines deeper down. A root is the exception, since its
      section headers sit at the root's own depth (see `RootShape`). */
  lemma NodeLinesShape(d: Dialect, node: Node, n: nat)
    ensures var r := NodeLines(d, node, n);
            |r| >= 1 && IsHeaderAt(r[0], n) && Indented(r, n)
    ensures !node.RootNode? ==> NodeShape(NodeLines(d, node, n), n)
  {
    match node
    case RootNode(root) => RootShape(d, root, n);
    case FuncDefNode(f) =>
      FuncDefShape(d, f, n);
      ShapeIndented(RenderFuncDef(d, f, n), n);
    case StmtNode(s) =>
      StmtShape(d, s, n);
      ShapeIndented(RenderStmt(d, s, n), n);
  }
}

=== FILE: ast_render_text.dfy ===
/** The layout of `AstRenderShape` read off the printed text: every line
    `print(n)` writes starts with `n` copies of `|   `; the first line
    opens the node, a capital letter right after those `n` units; and no
    other line of a non-root node opens a node at that depth. */
module AstRenderText {
  import opened Wrappers
  import opened Strings
  import opened Ast
  import opened AstRender
  import opened AstRenderShape

  /** A printed line that opens a node at depth `n`: `n` indent units, then
      a capital letter. */
  predicate OpensAt(s: string, n: nat) {
    Indent(n) <= s && |s| > 4 * n && IsUpper(s[4 * n])
  }

  /** A plain line at depth `n` or deeper prints `n` indent units first;
      the character after them is the text's first at depth `n` and the
      bar of a further unit deeper down. */
  lemma SpellAt(l: Line, n: nat)
    requires l.depth >= n && Plain(l)
    ensures Indent(n) <= Spell(l) && |Spell(l)| > 4 * n
    ensures Spell(l)[4 * n] == if l.depth == n then l.text[0] else '|'
  {
    RepeatAdd(IndentStr, n, l.depth - n);
    var rest := Repeat(IndentStr, l.depth - n);
    assert Spell(l) == Indent(n) + (rest + l.text);
    if l.depth > n {
      assert rest == IndentStr + Repeat(IndentStr, l.depth - n - 1);
      assert Spell(l)[4 * n] == rest[0];
    } else {
      assert Spell(l)[4 * n] == l.text[0];
    }
  }

  /** Printing keeps the distinction the layout draws: a plain line at
      depth `n` or deeper opens a node at depth `n` in print exactly when
      it is a header at depth `n`. */
  lemma OpensAtSpell(l: Line, n: nat)
    requires l.depth >= n && Plain(l)
    ensures Indent(n) <= Spell(l)
    ensures OpensAt(Spell(l), n) <==> IsHeaderAt(l, n)
  {
    SpellAt(l, n);
  }

  lemma {:induction false} IndentedAt(lines: seq<Line>, n: nat, i: nat)
    requires Indented(lines, n) && i < |lines|
    ensures lines[i].depth >= n && Plain(lines[i])
    decreases i
  {
    if i != 0 {
      IndentedAt(lines[1..], n, i - 1);
    }
  }

  lemma {:induction false} BelowAt(lines: seq<Line>, n: nat, i: nat)
    requires Below(lines, n) && i < |lines|
    ensures lines[i].depth >= n && Plain(lines[i]) && !IsHeaderAt(lines[i], n)
    decreases i
  {
    if i != 0 {
      BelowAt(lines[1..], n, i - 1);
    }
  }

  /** Printed, a list of lines at depth `n` or deeper starts every line with
      `n` indent units. */
  lemma SpelledIndented(lines: seq<Line>, n: nat)
    requires Indented(lines, n)
    ensures forall i :: 0 <= i < |Spelled(lines)| ==> Indent(n) <= Spelled(lines)[i]
  {
    var r := Spelled(lines);
    forall i | 0 <= i < |r|
      ensures Indent(n) <= r[i]
    {
      IndentedAt(lines, n, i);
      SpellAt(lines[i], n);
    }
  }

  /** Printed, a node's lines open the node on the first line and on no
      other. */
  lemma SpelledNode(lines: seq<Line>, n: nat)
    requires NodeShape(lines, n)
    ensures var r := Spelled(lines);
            |r| >= 1 && OpensAt(r[0], n)
            && forall i :: 1 <= i < |r| ==> Indent(n) <= r[i] && !OpensAt(r[i], n)
  {
    var r := Spelled(lines);
    OpensAtSpell(lines[0], n);
    forall i | 1 <= i < |r|
      ensures Indent(n) <= r[i] && !OpensAt(r[i], n)
    {
      BelowAt(lines[1..], n, i - 1);
      OpensAtSpell(lines[i], n);
    }
  }

  /** What `print(n)` writes for any node: every line starts with exactly
      the `n` indent units of its depth or more, the first line opens the
      node right after them, and in a statement or a function definition
      no later line opens a node at depth `n`, so every child line is one
      level deeper or is a `(Kind) ...` label. */
  lemma RenderLayout(d: Dialect, node: Node, n: nat)
    ensures var r := Render(d, node, n);
            && |r| >= 1 && OpensAt(r[0], n)
            && (forall i :: 0 <= i < |r| ==> Indent(n) <= r[i])
            && (!node.RootNode? ==> forall i :: 1 <= i < |r| ==> !OpensAt(r[i], n))
  {
    var lines := NodeLines(d, node, n);
    NodeLinesShape(d, node, n);
    SpelledIndented(lines, n);
    OpensAtSpell(lines[0], n);
    match node
    case RootNode(_) =>
    case FuncDefNode(f) =>
      FuncDefShape(d, f, n);
      SpelledNode(lines, n);
    case StmtNode(s) =>
      StmtShape(d, s, n);
      SpelledNode(lines, n);
  }
}

=== FILE: ast_roundtrip.dfy ===
/** The proof that the reader in `AstDecode` inverts the renderer on
    expressions: reading back the rendering of any expression, at any depth
    and in either dialect, gives the expression again, up to the other
    printer's spelling of its float literals, which is not on the page. */
module AstRoundTrip {
  import opened Wrappers
  import opened Strings
  import opened Ast
  import opened AstRender
  import opened AstRenderShape
  import opened AstDecode
  import opened AstDecodeSteps

  /** Reading back the rendering of an expression gives what the printout
      shows of it. */
  lemma {:induction false} ExprRoundTrip(d: Dialect, e: Expr, n: nat)
    ensures DecodeExpr(d, RenderExpr(d, e, n), n) == Some(Shown(d, e))
    decreases e
  {
    match e
    case RExpr(lhs, rhs, op) =>
      ExprRoundTrip(d, lhs, n + 1);
      ExprRoundTrip(d, rhs, n + 1);
      RExprStep(d, lhs, rhs, op, n);
    case BExpr(lhs, rhs, op) =>
      ExprRoundTrip(d, lhs, n + 1);
      ExprRoundTrip(d, rhs, n + 1);
      BExprStep(d, lhs, rhs, op, n);
    case UExpr(operand, op) =>
      ExprRoundTrip(d, operand, n + 1);
      UExprStep(d, operand, op, n);
    case Call(name, Some(p)) =>
      ExprRoundTrip(d, p, n + 1);
      CallStep(d, name, p, n);
    case _ =>
      LeafRoundTrip(d, e, n);
      Reassemble(d, e, n);
  }

  /** Reading back the text `print(n)` writes for an expression statement
      gives what it shows of the expression: the indentation units give back
      each line's depth, and the lines give back the expression. */
  lemma PrintedExprRoundTrip(d: Dialect, e: Expr, n: nat)
    ensures DecodeExprText(d, Render(d, StmtNode(ExprStmt(e)), n), n) == Some(Shown(d, e))
  {
    var lines := RenderExpr(d, e, n);
    assert NodeLines(d, StmtNode(ExprStmt(e)), n) == lines;
    ExprIndented(d, e, n);
    ReadLinesOf(lines, n);
    ExprRoundTrip(d, e, n);
  }

  /** Two expressions print the same text exactly when they agree in
      everything but the other printer's float spellings. */
  lemma PrintedExprInjective(d: Dialect, e1: Expr, e2: Expr, n: nat)
    ensures Render(d, StmtNode(ExprStmt(e1)), n) == Render(d, StmtNode(ExprStmt(e2)), n)
            <==> Shown(d, e1) == Shown(d, e2)
  {
    PrintedExprRoundTrip(d, e1, n);
    PrintedExprRoundTrip(d, e2, n);
    ShownPrintsAlike(d, e1, n);
    ShownPrintsAlike(d, e2, n);
    assert NodeLines(d, StmtNode(ExprStmt(e1)), n) == RenderExpr(d, e1, n);
    assert NodeLines(d, StmtNode(ExprStmt(e2)), n) == RenderExpr(d, e2, n);
  }

  /** Among expressions whose float literals both printers spell alike,
      printing is one-to-one. */
  lemma AgreeingExprInjective(d: Dialect, e1: Expr, e2: Expr, n: nat)
    requires FloatsAgree(e1) && FloatsAgree(e2)
    ensures Render(d, StmtNode(ExprStmt(e1)), n) == Render(d, StmtNode(ExprStmt(e2)), n) <==> e1 == e2
  {
    PrintedExprInjective(d, e1, e2, n);
    ShownIsIdentity(d, e1);
    ShownIsIdentity(d, e2);
  }

  /** What the printout shows of an expression prints the same lines, so
      the reader loses nothing that is printed. */
  lemma {:induction false} ShownPrintsAlike(d: Dialect, e: Expr, n: nat)
    ensures RenderExpr(d, Shown(d, e), n) == RenderExpr(d, e, n)
    decreases e
  {
    match e
    case RExpr(lhs, rhs, op) =>
      ShownPrintsAlike(d, lhs, n + 1);
      ShownPrintsAlike(d, rhs, n + 1);
      RExprRendering(d, lhs, rhs, op, n);
      RExprRendering(d, Shown(d, lhs), Shown(d, rhs), op, n);
    case BExpr(lhs, rhs, op) =>
      ShownPrintsAlike(d, lhs, n + 1);
      ShownPrintsAlike(d, rhs, n + 1);
      BExprRendering(d, lhs, rhs, op, n);
      BExprRendering(d, Shown(d, lhs), Shown(d, rhs), op, n);
    case UExpr(operand, op) =>
      ShownPrintsAlike(d, operand, n + 1);
      UExprRendering(d, operand, op, n);
      UExprRendering(d, Shown(d, operand), op, n);
    case Call(name, Some(p)) =>
      ShownPrintsAlike(d, p, n + 1);
      CallRendering(d, name, p, n);
      CallRendering(d, name, Shown(d, p), n);
    case _ =>
      ShownLeafPrintsAlike(d, e, n);
  }

  lemma ShownLeafPrintsAlike(d: Dialect, e: Expr, n: nat)
    requires !(e.RExpr? || e.BExpr? || e.UExpr? || (e.Call? && e.param.Some?))
    ensures RenderExpr(d, Shown(d, e), n) == RenderExpr(d, e, n)
  {
    assert ExprHeader(d, Shown(d, e)) == ExprHeader(d, e);
  }

  /** The reader gives back the expression itself exactly when the two
      printers spell each of its float literals alike. */
  lemma {:induction false} ShownIsIdentity(d: Dialect, e: Expr)
    ensures Shown(d, e) == e <==> FloatsAgree(e)
    decreases e
  {
    match e
    case RExpr(lhs, rhs, op) =>
      ShownIsIdentity(d, lhs);
      ShownIsIdentity(d, rhs);
    case BExpr(lhs, rhs, op) =>
      ShownIsIdentity(d, lhs);
      ShownIsIdentity(d, rhs);
    case UExpr(operand, op) =>
      ShownIsIdentity(d, operand);
    case Call(name, Some(p)) =>
      ShownIsIdentity(d, p);
    case _ =>
  }

  /** The header names the kind and carries its argument, so once the kind's
      own decoder recovers the expression from the lines below the header,
      the whole rendering decodes to it. */
  lemma Reassemble(d: Dialect, e: Expr, n: nat)
    requires DecodeKind(d, TagOf(e), ExprArg(d, e), ExprBody(d, e, n), n) == Some(Shown(d, e))
    ensures DecodeExpr(d, RenderExpr(d, e, n), n) == Some(Shown(d, e))
  {
    var lines := RenderExpr(d, e, n);
    RenderExprSplit(d, e, n);
    ExprHeaderRead(d, e, n);
    ExprTagRoundTrip(TagOf(e));
    StripPrefixOf(" ", ExprArg(d, e));
    assert lines[0] == Line(n, ExprHeader(d, e)) && lines[1..] == ExprBody(d, e, n);
  }

  lemma RExprStep(d: Dialect, lhs: Expr, rhs: Expr, op: ROpType, n: nat)
    requires DecodeExpr(d, RenderExpr(d, lhs, n + 1), n + 1) == Some(Shown(d, lhs))
    requires DecodeExpr(d, RenderExpr(d, rhs, n + 1), n + 1) == Some(Shown(d, rhs))
    ensures DecodeExpr(d, RenderExpr(d, RExpr(lhs, rhs, op), n), n) == Some(Shown(d, RExpr(lhs, rhs, op)))
  {
    RExprFinish(d, lhs, rhs, op, n);
    Reassemble(d, RExpr(lhs, rhs, op), n);
  }

  lemma RExprFinish(d: Dialect, lhs: Expr, rhs: Expr, op: ROpType, n: nat)
    requires DecodeExpr(d, RenderExpr(d, lhs, n + 1), n + 1) == Some(Shown(d, lhs))
    requires DecodeExpr(d, RenderExpr(d, rhs, n + 1), n + 1) == Some(Shown(d, rhs))
    ensures var e := RExpr(lhs, rhs, op);
            DecodeKind(d, TagOf(e), ExprArg(d, e), ExprBody(d, e, n), n) == Some(Shown(d, e))
  {
    var m: nat := n + 1;
    var l, r := RenderExpr(d, lhs, m), RenderExpr(d, rhs, m);
    ExprIndented(d, lhs, m);
    RExprBody(d, lhs, rhs, op, n);
    RExprLink(d, lhs, rhs, op, n, l, r);
  }

  lemma BExprStep(d: Dialect, lhs: Expr, rhs: Expr, op: BOpType, n: nat)
    requires DecodeExpr(d, RenderExpr(d, lhs, n + 1), n + 1) == Some(Shown(d, lhs))
    requires DecodeExpr(d, RenderExpr(d, rhs, n + 1), n + 1) == Some(Shown(d, rhs))
    ensures DecodeExpr(d, RenderExpr(d, BExpr(lhs, rhs, op), n), n) == Some(Shown(d, BExpr(lhs, rhs, op)))
  {
    BExprFinish(d, lhs, rhs, op, n);
    Reassemble(d, BExpr(lhs, rhs, op), n);
  }

  lemma BExprFinish(d: Dialect, lhs: Expr, rhs: Expr, op: BOpType, n: nat)
    requires DecodeExpr(d, RenderExpr(d, lhs, n + 1), n + 1) == Some(Shown(d, lhs))
    requires DecodeExpr(d, RenderExpr(d, rhs, n + 1), n + 1) == Some(Shown(d, rhs))
    ensures var e := BExpr(lhs, rhs, op);
            DecodeKind(d, TagOf(e), ExprArg(d, e), ExprBody(d, e, n), n) == Some(Shown(d, e))
  {
    var m: nat := n + 1;
    var l, r := RenderExpr(d, lhs, m), RenderExpr(d, rhs, m);
    ExprIndented(d, lhs, m);
    BExprBody(d, lhs, rhs, op, n);
    BExprLink(d, lhs, rhs, op, n, l, r);
  }

  lemma UExprStep(d: Dialect, operand: Expr, op: UOpType, n: nat)
    requires DecodeExpr(d, RenderExpr(d, operand, n + 1), n + 1) == Some(Shown(d, operand))
    ensures DecodeExpr(d, RenderExpr(d, UExpr(operand, op), n), n) == Some(Shown(d, UExpr(operand, op)))
  {
    UExprFinish(d, operand, op, n);
    Reassemble(d, UExpr(operand, op), n);
  }

  lemma UExprFinish(d: Dialect, operand: Expr, op: UOpType, n: nat)
    requires DecodeExpr(d, RenderExpr(d, operand, n + 1), n + 1) == Some(Shown(d, operand))
    ensures var e := UExpr(operand, op);
            DecodeKind(d, TagOf(e), ExprArg(d, e), ExprBody(d, e, n), n) == Some(Shown(d, e))
  {
    UExprBody(d, operand, op, n);
    UExprLink(d, operand, op, n, RenderExpr(d, operand, n + 1));
  }

  lemma CallStep(d: Dialect, name: string, p: Expr, n: nat)
    requires DecodeExpr(d, RenderExpr(d, p, n + 1), n + 1) == Some(Shown(d, p))
    ensures DecodeExpr(d, RenderExpr(d, Call(name, Some(p)), n), n) == Some(Shown(d, Call(name, Some(p))))
  {
    CallFinish(d, name, p, n);
    Reassemble(d, Call(name, Some(p)), n);
  }

  lemma CallFinish(d: Dialect, name: string, p: Expr, n: nat)
    requires DecodeExpr(d, RenderExpr(d, p, n + 1), n + 1) == Some(Shown(d, p))
    ensures var e := Call(name, Some(p));
            DecodeKind(d, TagOf(e), ExprArg(d, e), ExprBody(d, e, n), n) == Some(Shown(d, e))
  {
    var m: nat := n + 1;
    CallBody(d, name, p, n);
    CallLink(d, name, p, n, RenderExpr(d, p, m));
  }
}

=== FILE: strings.dfy ===
/** Text utilities shared by the renderers and their decoders: repetition
    (Java's `String.repeat`, Python's `str * int`), flattening of line lists,
    decimal formatting of integers (Java's `%s` of an `int`, Python's
    `str(int)`), and the prefix/suffix/split operations the decoders use. */
module Strings {
  import opened Wrappers

  /** `n` copies of `s` laid end to end. */
  function Repeat(s: string, n: nat): (r: string)
    ensures |r| == |s| * n
  {
    if n == 0 then [] else s + Repeat(s, n - 1)
  }

  lemma {:induction false} RepeatAdd(s: string, a: nat, b: nat)
    ensures Repeat(s, a + b) == Repeat(s, a) + Repeat(s, b)
    decreases a
  {
    if a != 0 {
      RepeatAdd(s, a - 1, b);
      assert Repeat(s, a + b) == s + Repeat(s, a - 1 + b);
    }
  }

  /** One more copy sits at the end as well as at the front. */
  lemma RepeatSucc(s: string, n: nat)
    ensures Repeat(s, n + 1) == Repeat(s, n) + s
  {
    RepeatAdd(s, n, 1);
    assert Repeat(s, 1) == s + Repeat(s, 0);
  }

  lemma RepeatPrefix(s: string, a: nat, b: nat)
    requires a <= b
    ensures Repeat(s, a) <= Repeat(s, b)
  {
    RepeatAdd(s, a, b - a);
  }

  /** Every character of `Repeat(s, n)` is the matching character of `s`. */
  lemma {:induction false} RepeatChars(s: string, n: nat, c: char)
    requires forall k :: 0 <= k < |s| ==> s[k] == c
    ensures forall k :: 0 <= k < |Repeat(s, n)| ==> Repeat(s, n)[k] == c
    decreases n
  {
    if n != 0 {
      RepeatChars(s, n - 1, c);
      var r := Repeat(s, n);
      assert r == s + Repeat(s, n - 1);
      forall k | 0 <= k < |r|
        ensures r[k] == c
      {
        if k >= |s| {
          assert r[k] == Repeat(s, n - 1)[k - |s|];
        }
      }
    }
  }

  lemma {:induction false} RepeatAvoids(s: string, n: nat, c: char)
    requires c !in s
    ensures c !in Repeat(s, n)
    decreases n
  {
    if n != 0 {
      RepeatAvoids(s, n - 1, c);
    }
  }

  /** Both halves of a concatenation can be cut back out of it. */
  lemma Halves<T>(a: seq<T>, b: seq<T>)
    ensures (a + b)[..|a|] == a && (a + b)[|a|..] == b
  {
  }

  /** The concatenation of a list of lists, in order. */
  function Concat<T>(parts: seq<seq<T>>): (r: seq<T>)
  {
    if |parts| == 0 then [] else parts[0] + Concat(parts[1..])
  }

  lemma {:induction false} ConcatAppend<T>(a: seq<seq<T>>, b: seq<seq<T>>)
    ensures Concat(a + b) == Concat(a) + Concat(b)
    decreases |a|
  {
    if |a| != 0 {
      ConcatAppend(a[1..], b);
      assert (a + b)[1..] == a[1..] + b;
      calc {
        Concat(a + b);
        a[0] + Concat(a[1..] + b);
        a[0] + (Concat(a[1..]) + Concat(b));
      }
    } else {
      assert a + b == b;
    }
  }

  /** The total number of elements of a list of lists. */
  function SumLengths<T>(parts: seq<seq<T>>): nat
  {
    if |parts| == 0 then 0 else |parts[0]| + SumLengths(parts[1..])
  }

  lemma {:induction false} ConcatLength<T>(parts: seq<seq<T>>)
    ensures |Concat(parts)| == SumLengths(parts)
    decreases |parts|
  {
    if |parts| != 0 {
      ConcatLength(parts[1..]);
    }
  }

  /** The `i`-th part sits in the concatenation right after the parts
      before it. */
  lemma {:induction false} ConcatAt<T>(parts: seq<seq<T>>, i: nat)
    requires i < |parts|
    ensures SumLengths(parts[..i]) + |parts[i]| <= |Concat(parts)|
    ensures Concat(parts)[SumLengths(parts[..i])..SumLengths(parts[..i]) + |parts[i]|] == parts[i]
    decreases i
  {
    ConcatLength(parts);
    ConcatLength(parts[1..]);
    if i == 0 {
      assert parts[..0] == [];
      Halves(parts[0], Concat(parts[1..]));
    } else {
      var tail := parts[1..];
      ConcatAt(tail, i - 1);
      assert parts[..i][1..] == tail[..i - 1];
      assert SumLengths(parts[..i]) == |parts[0]| + SumLengths(tail[..i - 1]);
      var k := SumLengths(tail[..i - 1]);
      assert Concat(parts)[|parts[0]| + k..|parts[0]| + k + |parts[i]|]
          == Concat(tail)[k..k + |parts[i]|];
    }
  }

  // ---------------------------------------------------------------------
  // Decimal formatting of integers

  predicate IsDigit(c: char) {
    '0' <= c <= '9'
  }

  predicate AllDigits(s: string) {
    forall i :: 0 <= i < |s| ==> IsDigit(s[i])
  }

  function DigitChar(d: nat): (c: char)
    requires d < 10
    ensures IsDigit(c)
  {
    (48 + d) as char
  }

  function DigitValue(c: char): (d: nat)
    requires IsDigit(c)
    ensures d < 10
  {
    c as int - 48
  }

  /** The shortest decimal spelling of `n`: digits only, no leading zero
      unless `n` is zero itself. */
  function NatToString(n: nat): (s: string)
    ensures |s| >= 1
    decreases n
  {
    if n < 10 then [DigitChar(n)] else NatToString(n / 10) + [DigitChar(n % 10)]
  }

  lemma {:induction false} NatToStringDigits(n: nat)
    ensures AllDigits(NatToString(n))
    ensures NatToString(n)[0] == '0' ==> n == 0 && |NatToString(n)| == 1
    decreases n
  {
    if n >= 10 {
      NatToStringDigits(n / 10);
      var s := NatToString(n);
      assert s == NatToString(n / 10) + [DigitChar(n % 10)];
      assert s[0] == NatToString(n / 10)[0];
    }
  }

  /** The value of a non-empty digit string, most significant digit first. */
  function ParseDigits(s: string): nat
    requires |s| >= 1 && AllDigits(s)
    decreases |s|
  {
    if |s| == 1 then DigitValue(s[0])
    else 10 * ParseDigits(s[..|s| - 1]) + DigitValue(s[|s| - 1])
  }

  lemma {:induction false} ParseNatToString(n: nat)
    ensures AllDigits(NatToString(n))
    ensures ParseDigits(NatToString(n)) == n
    decreases n
  {
    NatToStringDigits(n);
    if n >= 10 {
      var s := NatToString(n);
      NatToStringDigits(n / 10);
      ParseNatToString(n / 10);
      assert s[..|s| - 1] == NatToString(n / 10);
    }
  }

  /** The text Java's `%s` and Python's `str` give an integer: a minus sign
      for negatives, then the shortest decimal spelling of the magnitude. */
  function IntToString(i: int): string
  {
    if i < 0 then "-" + NatToString(-i) else NatToString(i)
  }

  /** Reads back an integer spelled the way `IntToString` spells it. */
  function ParseInt(s: string): Option<int>
  {
    if |s| >= 2 && s[0] == '-' && AllDigits(s[1..]) then Some(0 - ParseDigits(s[1..]) as int)
    else if |s| >= 1 && AllDigits(s) then Some(ParseDigits(s))
    else None
  }

  lemma ParseIntToString(i: int)
    ensures ParseInt(IntToString(i)) == Some(i)
  {
    if i < 0 {
      var t := NatToString(-i);
      ParseNatToString(-i);
      NegativeSpelling(t);
      assert ParseInt("-" + t) == Some(0 - ParseDigits(t) as int);
    } else {
      ParseNatToString(i);
      NatToStringDigits(i);
      assert NatToString(i)[0] != '-';
    }
  }

  /** What follows the minus sign of a negative's spelling. */
  lemma NegativeSpelling(t: string)
    requires |t| >= 1
    ensures |"-" + t| >= 2 && ("-" + t)[0] == '-' && ("-" + t)[1..] == t
  {
  }

  /** Formatting is injective: distinct integers never print alike. */
  lemma IntToStringInjective(i: int, j: int)
    ensures IntToString(i) == IntToString(j) ==> i == j
  {
    ParseIntToString(i);
    ParseIntToString(j);
  }

  // ---------------------------------------------------------------------
  // Splitting

  function StripPrefix(p: string, s: string): (r: Option<string>)
    ensures r.Some? <==> p <= s
    ensures r.Some? ==> s == p + r.value
  {
    if p <= s then Some(s[|p|..]) else None
  }

  function StripSuffix(s: string, p: string): (r: Option<string>)
    ensures r.Some? <==> |p| <= |s| && s[|s| - |p|..] == p
    ensures r.Some? ==> s == r.value + p
  {
    if |p| <= |s| && s[|s| - |p|..] == p then Some(s[..|s| - |p|]) else None
  }

  lemma StripPrefixOf(p: string, t: string)
    ensures StripPrefix(p, p + t) == Some(t)
  {
    assert (p + t)[|p|..] == t;
  }

  lemma StripSuffixOf(t: string, p: string)
    ensures StripSuffix(t + p, p) == Some(t)
  {
    assert (t + p)[|t|..] == p;
    assert (t + p)[..|t|] == t;
  }

  /** The position of the first `c` in `s`. */
  function IndexOf(s: string, c: char): (r: Option<nat>)
    ensures r.Some? ==> r.value < |s| && s[r.value] == c && c !in s[..r.value]
    ensures r.None? ==> c !in s
  {
    if |s| == 0 then None
    else if s[0] == c then Some(0)
    else match IndexOf(s[1..], c)
      case None => None
      case Some(i) =>
        assert s[..i + 1] == [s[0]] + s[1..][..i];
        Some(i + 1)
  }

  /** The position of the last `c` in `s`. */
  function LastIndexOf(s: string, c: char): (r: Option<nat>)
    ensures r.Some? ==> r.value < |s| && s[r.value] == c && c !in s[r.value + 1..]
    ensures r.None? ==> c !in s
  {
    if |s| == 0 then None
    else if s[|s| - 1] == c then Some(|s| - 1)
    else match LastIndexOf(s[..|s| - 1], c)
      case None => None
      case Some(i) =>
        assert s[i + 1..] == s[..|s| - 1][i + 1..] + [s[|s| - 1]];
        Some(i)
  }

  /** The text before and after the first `c`. */
  function SplitFirst(s: string, c: char): (r: Option<(string, string)>)
    ensures r.Some? ==> s == r.value.0 + [c] + r.value.1 && c !in r.value.0
    ensures r.None? ==> c !in s
  {
    match IndexOf(s, c)
    case None => None
    case Some(i) =>
      assert s == s[..i] + [c] + s[i + 1..];
      Some((s[..i], s[i + 1..]))
  }

  /** The text before and after the last `c`. */
  function SplitLast(s: string, c: char): (r: Option<(string, string)>)
    ensures r.Some? ==> s == r.value.0 + [c] + r.value.1 && c !in r.value.1
    ensures r.None? ==> c !in s
  {
    match LastIndexOf(s, c)
    case None => None
    case Some(i) =>
      assert s == s[..i] + [c] + s[i + 1..];
      Some((s[..i], s[i + 1..]))
  }

  /** A split at the first `c` recovers the parts when `c` is absent from
      the part before it. */
  lemma SplitFirstOf(a: string, c: char, b: string)
    requires c !in a
    ensures SplitFirst(a + [c] + b, c) == Some((a, b))
  {
    var s := a + [c] + b;
    assert s[|a|] == c;
    var r := SplitFirst(s, c);
    assert r.Some?;
    var (x, y) := r.value;
    assert |x| == |a|;
    assert x == s[..|a|] == a;
    assert y == s[|a| + 1..] == b;
  }

  /** A split at the last `c` recovers the parts when `c` is absent from
      the part after it. */
  lemma SplitLastOf(a: string, c: char, b: string)
    requires c !in b
    ensures SplitLast(a + [c] + b, c) == Some((a, b))
  {
    var s := a + [c] + b;
    assert s[|a|] == c;
    var r := SplitLast(s, c);
    assert r.Some?;
    var (x, y) := r.value;
    assert |x| == |a|;
    assert x == s[..|a|] == a;
    assert y == s[|a| + 1..] == b;
  }
}

=== FILE: tree_utils.dfy ===
/** The parse-tree pretty-printer of `TreeUtils.java`.

    A parse tree is a rose tree of node texts (what `Trees.getNodeText`
    gives for a rule or token). The printer writes a leaf as its escaped
    text alone; an interior node opens on a fresh line indented two spaces
    per level (`lead`), prints its escaped text and a space, its children
    one level deeper, and closes with the same `lead`. The static `level`
    counter of the Java class is threaded explicitly here.

    The runtime's `Utils.escapeWhitespace` and the platform line separator
    `Eol` are parameters; so is the regular-expression pass that
    `outputTree` applies to the finished text. */
module TreeUtils {
  import opened Strings

  datatype Tree = Tree(text: string, children: seq<Tree>)

  /** `Indents`: one level of indentation. */
  const Indents: string := "  "

  /** `lead(level)`: nothing at level zero or below; otherwise a line break
      and `level` indentation units. */
  function Lead(eol: string, level: int): (r: string)
    ensures level <= 0 ==> r == ""
    ensures level > 0 ==> |r| == |eol| + 2 * level && eol <= r
  {
    if level > 0 then eol + Repeat(Indents, level) else ""
  }

  /** `lead` as the Java method builds it, one indentation unit per turn of
      its loop. */
  method BuildLead(eol: string, level: int) returns (r: string)
    ensures r == Lead(eol, level)
    ensures level > 0 ==> forall k :: |eol| <= k < |r| ==> r[k] == ' '
  {
    r := "";
    if level > 0 {
      r := r + eol;
      var cnt := 0;
      while cnt < level
        invariant 0 <= cnt <= level
        invariant r == eol + Repeat(Indents, cnt)
      {
        RepeatSucc(Indents, cnt);
        r := r + Indents;
        cnt := cnt + 1;
      }
      RepeatChars(Indents, level, ' ');
      assert forall k :: |eol| <= k < |r| ==> r[k] == Repeat(Indents, level)[k - |eol|];
    }
  }

  /** `process(t)` at level `level`, as a function of the tree. */
  function Serialize(eol: string, escape: string -> string, t: Tree, level: int): string
    decreases t, 1
  {
    if |t.children| == 0 then escape(t.text)
    else Lead(eol, level) + escape(t.text) + " " + SerializeAll(eol, escape, t.children, level + 1)
         + Lead(eol, level)
  }

  /** The children one after the other, all at the same level. */
  function SerializeAll(eol: string, escape: string -> string, ts: seq<Tree>, level: int): string
    decreases ts, 0
  {
    if |ts| == 0 then "" else Serialize(eol, escape, ts[0], level) + SerializeAll(eol, escape, ts[1..], level)
  }

  /** `outputTree`: start at level zero and pass the text through the
      blank-line clean-up, which is `normalize` here. */
  function OutputTree(eol: string, escape: string -> string, normalize: string -> string, t: Tree): string {
    normalize(Serialize(eol, escape, t, 0))
  }

  lemma {:induction false} SerializeAllSnoc(eol: string, escape: string -> string, ts: seq<Tree>, i: nat, level: int)
    requires i < |ts|
    ensures SerializeAll(eol, escape, ts[..i + 1], level)
            == SerializeAll(eol, escape, ts[..i], level) + Serialize(eol, escape, ts[i], level)
    decreases i
  {
    if i == 0 {
      assert ts[..1] == [ts[0]];
      assert ts[..1][1..] == [];
    } else {
      var tail := ts[1..];
      SerializeAllSnoc(eol, escape, tail, i - 1, level);
      assert ts[..i + 1][1..] == tail[..i];
      assert ts[..i][1..] == tail[..i - 1];
      assert tail[i - 1] == ts[i];
    }
  }

  /** `process` as the Java method runs it: a string builder filled with
      the lead, the text, then the children, with the shared `level`
      counter raised before the children and lowered after them. It hands
      `level` back unchanged, and its text is `Serialize`'s. */
  method Process(eol: string, escape: string -> string, t: Tree, level: int) returns (s: string, levelOut: int)
    ensures levelOut == level
    ensures s == Serialize(eol, escape, t, level)
    decreases t, 1
  {
    if |t.children| == 0 {
      return escape(t.text), level;
    }
    var lead := BuildLead(eol, level);
    var sb := lead;
    var lvl := level + 1;
    sb := sb + (escape(t.text) + " ");
    var children;
    children, lvl := ProcessChildren(eol, escape, t.children, lvl);
    sb := sb + children;
    lvl := lvl - 1;
    var close := BuildLead(eol, lvl);
    return sb + close, lvl;
  }

  /** The loop of `process` over a node's children, each processed at the
      raised level, which every child hands back unchanged. */
  method ProcessChildren(eol: string, escape: string -> string, ts: seq<Tree>, level: int)
    returns (s: string, levelOut: int)
    ensures levelOut == level
    ensures s == SerializeAll(eol, escape, ts, level)
    decreases ts, 0
  {
    s := "";
    var lvl := level;
    var i := 0;
    while i < |ts|
      invariant 0 <= i <= |ts|
      invariant lvl == level
      invariant s == SerializeAll(eol, escape, ts[..i], level)
    {
      var child, after := Process(eol, escape, ts[i], lvl);
      SerializeAllSnoc(eol, escape, ts, i, level);
      s := s + child;
      lvl := after;
      i := i + 1;
    }
    assert ts[..i] == ts;
    return s, lvl;
  }

  // ---------------------------------------------------------------------
  // The layout

  /** A leaf is its escaped text alone: no line break, indentation or
      space around it, at any level. */
  lemma LeafIsEscapedText(eol: string, escape: string -> string, text: string, level: int)
    ensures Serialize(eol, escape, Tree(text, []), level) == escape(text)
  {
  }

  lemma {:induction false} SerializeAllAppend(eol: string, escape: string -> string, a: seq<Tree>, b: seq<Tree>, level: int)
    ensures SerializeAll(eol, escape, a + b, level)
            == SerializeAll(eol, escape, a, level) + SerializeAll(eol, escape, b, level)
    decreases |a|
  {
    if |a| == 0 {
      assert a + b == b;
    } else {
      SerializeAllAppend(eol, escape, a[1..], b, level);
      assert (a + b)[1..] == a[1..] + b && (a + b)[0] == a[0];
      var h := Serialize(eol, escape, a[0], level);
      assert SerializeAll(eol, escape, a + b, level) == h + SerializeAll(eol, escape, a[1..] + b, level);
      assert SerializeAll(eol, escape, a, level) == h + SerializeAll(eol, escape, a[1..], level);
    }
  }

  /** An interior node at level `level` opens with `lead(level)`, its
      escaped text and a space, and closes with `lead(level)`; in between,
      the `i`-th child, serialized one level deeper, comes right after the
      children before it. */
  lemma InteriorLayout(eol: string, escape: string -> string, t: Tree, level: int, i: nat)
    requires |t.children| > 0 && i < |t.children|
    ensures var s := Serialize(eol, escape, t, level);
            var open := Lead(eol, level) + escape(t.text) + " ";
            && open + SerializeAll(eol, escape, t.children[..i], level + 1)
                 + Serialize(eol, escape, t.children[i], level + 1) <= s
            && |Lead(eol, level)| <= |s|
            && s[|s| - |Lead(eol, level)|..] == Lead(eol, level)
  {
    var ts := t.children;
    var open := Lead(eol, level) + escape(t.text) + " ";
    var pre := SerializeAll(eol, escape, ts[..i], level + 1);
    var child := Serialize(eol, escape, ts[i], level + 1);
    var rest := SerializeAll(eol, escape, ts[i + 1..], level + 1);
    var close := Lead(eol, level);
    InteriorText(eol, escape, t, level);
    ChildrenAround(eol, escape, ts, i, level + 1);
    Frame(open, pre, child, rest, close);
  }

  /** The children's text cut around the `i`-th child. */
  lemma ChildrenAround(eol: string, escape: string -> string, ts: seq<Tree>, i: nat, level: int)
    requires i < |ts|
    ensures SerializeAll(eol, escape, ts, level)
            == (SerializeAll(eol, escape, ts[..i], level) + Serialize(eol, escape, ts[i], level))
               + SerializeAll(eol, escape, ts[i + 1..], level)
  {
    assert ts == ts[..i + 1] + ts[i + 1..];
    SerializeAllAppend(eol, escape, ts[..i + 1], ts[i + 1..], level);
    SerializeAllSnoc(eol, escape, ts, i, level);
  }

  /** An interior node's text: the opening, the children, the closing lead. */
  lemma InteriorText(eol: string, escape: string -> string, t: Tree, level: int)
    requires |t.children| > 0
    ensures Serialize(eol, escape, t, level)
            == (Lead(eol, level) + escape(t.text) + " ")
               + (SerializeAll(eol, escape, t.children, level + 1) + Lead(eol, level))
  {
  }

  /** `open + pre + child` starts `open + (((pre + child) + rest) + close)`,
      which ends with `close`. */
  lemma Frame<T>(open: seq<T>, pre: seq<T>, child: seq<T>, rest: seq<T>, close: seq<T>)
    ensures var s := open + (((pre + child) + rest) + close);
            open + pre + child <= s && |close| <= |s| && s[|s| - |close|..] == close
  {
    var s := open + (((pre + child) + rest) + close);
    assert s[..|open + pre + child|] == open + pre + child;
    assert s[|s| - |close|..] == close;
  }

  /** `outputTree` starts at level zero, where `lead` is empty: the text
      handed to the clean-up begins with the root's own escaped text, with
      no line break before it. */
  lemma RootStartsWithItsText(eol: string, escape: string -> string, t: Tree)
    ensures escape(t.text) <= Serialize(eol, escape, t, 0)
  {
    if |t.children| > 0 {
      assert Serialize(eol, escape, t, 0)
          == escape(t.text) + (" " + SerializeAll(eol, escape, t.children, 1));
    }
  }

  /** Below the root, an interior node opens on a new line indented two
      spaces per level. */
  lemma NestedInteriorOpensLine(eol: string, escape: string -> string, t: Tree, level: int)
    requires |t.children| > 0 && level > 0
    ensures eol + Repeat(Indents, level) <= Serialize(eol, escape, t, level)
  {
    var rest := escape(t.text) + " " + SerializeAll(eol, escape, t.children, level + 1) + Lead(eol, level);
    assert Serialize(eol, escape, t, level) == (eol + Repeat(Indents, level)) + rest;
  }
}

=== FILE: walker.dfy ===
/** The declaration checker of `MiniCWalker.java`, as a fold over the
    listener callbacks the parse-tree walk delivers.

    The listener keeps a name table (`varDeclared`, a map that only ever
    stores `true`, so a set here), the diagnostics it prints, and a sticky
    `hasError` flag. The table does not exist until the first function is
    entered: a callback that consults it before then dereferences `null`
    and the walk ends with an exception, which `Walk` reports as `None`. */
module Walker {
  import opened Wrappers
  import opened Strings

  /** The callbacks the checker reacts to, each with the text the parse
      tree gives it. `Expr(None)` is an expression with no `NAME` token. */
  datatype Event =
    | FuncEnter
    | Param(name: string)
    | LocalDecl(name: string)
    | Expr(ref: Option<string>)
    | ErrorNode

  datatype Diagnostic =
    | MultipleDeclaration(name: string)
    | UndeclaredVariable(name: string)

  /** The text `System.out.println` is given for a diagnostic. */
  function Message(dg: Diagnostic): (m: string)
    ensures |m| > |dg.name| + 1
    ensures m[|m| - 1] == '\n' && m[|m| - 1 - |dg.name|..|m| - 1] == dg.name
  {
    match dg
    case MultipleDeclaration(name) => "Multiple declaration of variable : " + name + "\n"
    case UndeclaredVariable(name) => "Undeclared Variable " + name + "\n"
  }

  /** The listener's fields; `table` is `None` while `varDeclared` is null. */
  datatype Walker = Walker(table: Option<set<string>>, diagnostics: seq<Diagnostic>, hasError: bool)

  const Initial := Walker(None, [], false)

  /** Whether a callback reads or writes the table. */
  predicate UsesTable(ev: Event) {
    ev.Param? || ev.LocalDecl? || (ev.Expr? && ev.ref.Some?)
  }

  /** One callback. `None` is the null dereference of a table event that
      arrives before any function was entered. */
  function Step(w: Walker, ev: Event): (r: Option<Walker>)
    ensures r.None? <==> UsesTable(ev) && w.table.None?
    ensures r.Some? && !ev.FuncEnter? ==> r.value.table.Some? == w.table.Some?
    ensures r.Some? && !ev.FuncEnter? && w.table.Some? ==> w.table.value <= r.value.table.value
    ensures r.Some? ==> w.diagnostics <= r.value.diagnostics
                        && |r.value.diagnostics| <= |w.diagnostics| + 1
    ensures r.Some? ==> (r.value.hasError <==> w.hasError || ev.ErrorNode?)
  {
    match ev
    case FuncEnter => Some(w.(table := Some({})))
    case Param(x) =>
      if w.table.None? then None
      else Some(w.(table := Some(w.table.value + {x})))
    case LocalDecl(x) =>
      if w.table.None? then None
      else if x in w.table.value then Some(w.(diagnostics := w.diagnostics + [MultipleDeclaration(x)]))
      else Some(w.(table := Some(w.table.value + {x})))
    case Expr(None) => Some(w)
    case Expr(Some(x)) =>
      if w.table.None? then None
      else if x !in w.table.value then Some(w.(diagnostics := w.diagnostics + [UndeclaredVariable(x)]))
      else Some(w)
    case ErrorNode => Some(w.(hasError := true))
  }

  /** The state after a whole event sequence, or `None` if some callback
      threw. */
  function Walk(evs: seq<Event>): (r: Option<Walker>)
    ensures r.Some? ==> |r.value.diagnostics| <= |evs|
    ensures r.Some? ==> (r.value.hasError <==> ErrorNode in evs)
  {
    if |evs| == 0 then Some(Initial)
    else
      var pre, ev := evs[..|evs| - 1], evs[|evs| - 1];
      assert evs == pre + [ev];
      InSnoc(pre, ev, ErrorNode);
      match Walk(pre)
      case None => None
      case Some(w) => Step(w, ev)
  }

  // ---------------------------------------------------------------------
  // What one callback does

  /** `enterFunc_decl` starts a fresh, empty table and prints nothing. */
  lemma FuncEnterResets(w: Walker)
    ensures Step(w, FuncEnter) == Some(Walker(Some({}), w.diagnostics, w.hasError))
  {
  }

  /** `enterParam` inserts the name if absent and never prints. */
  lemma ParamInserts(w: Walker, x: string)
    requires w.table.Some?
    ensures var r := Step(w, Param(x));
            r.Some? && r.value.table == Some(w.table.value + {x})
            && x in r.value.table.value
            && r.value.diagnostics == w.diagnostics
  {
  }

  /** `enterLocal_decl` of a name already in the table prints one
      `Multiple declaration` diagnostic for it and leaves the table alone;
      of a fresh name, it inserts the name and prints nothing. */
  lemma LocalDeclChecks(w: Walker, x: string)
    requires w.table.Some?
    ensures var r := Step(w, LocalDecl(x));
            && r.Some?
            && (x in w.table.value ==> r.value.table == w.table
                                       && r.value.diagnostics == w.diagnostics + [MultipleDeclaration(x)])
            && (x !in w.table.value ==> r.value.table == Some(w.table.value + {x})
                                        && r.value.diagnostics == w.diagnostics)
  {
  }

  /** `enterExpr` never changes the table; it prints one `Undeclared
      Variable` diagnostic exactly when the expression is a name that the
      table lacks. */
  lemma ExprChecks(w: Walker, ref: Option<string>)
    requires ref.Some? ==> w.table.Some?
    ensures var r := Step(w, Expr(ref));
            && r.Some? && r.value.table == w.table && r.value.hasError == w.hasError
            && (ref.None? ==> r.value == w)
            && (ref.Some? && ref.value !in w.table.value ==>
                  r.value.diagnostics == w.diagnostics + [UndeclaredVariable(ref.value)])
            && (ref.Some? && ref.value in w.table.value ==> r.value.diagnostics == w.diagnostics)
  {
  }

  /** `visitErrorNode` raises the flag and touches nothing else. */
  lemma ErrorNodeFlags(w: Walker)
    ensures Step(w, ErrorNode) == Some(w.(hasError := true))
  {
  }

  // ---------------------------------------------------------------------
  // A declarative account of a whole walk

  /** A table callback arrives before any function entry. */
  predicate Crashes(evs: seq<Event>) {
    exists i :: 0 <= i < |evs| && UsesTable(evs[i]) && FuncEnter !in evs[..i]
  }

  /** The events since the last function entry (all of them if there was
      none). */
  function Scope(evs: seq<Event>): (s: seq<Event>)
    ensures FuncEnter !in s
    ensures |s| <= |evs| && s == evs[|evs| - |s|..]
    ensures |s| < |evs| ==> evs[|evs| - |s| - 1] == FuncEnter
  {
    if |evs| == 0 then []
    else if evs[|evs| - 1] == FuncEnter then []
    else
      var s := Scope(evs[..|evs| - 1]);
      assert evs[|evs| - 1 - |s|..] == evs[..|evs| - 1][|evs| - 1 - |s|..] + [evs[|evs| - 1]];
      s + [evs[|evs| - 1]]
  }

  /** The names a list of events declares, as parameters or locals. */
  function DeclaredIn(evs: seq<Event>): set<string> {
    set i | 0 <= i < |evs| && (evs[i].Param? || evs[i].LocalDecl?) :: evs[i].name
  }

  /** The names in scope after `evs`: those declared since the last
      function entry. */
  function Declared(evs: seq<Event>): set<string> {
    DeclaredIn(Scope(evs))
  }

  /** What the listener reports for event `ev` arriving after `pre`. */
  function ReportFor(pre: seq<Event>, ev: Event): seq<Diagnostic> {
    match ev
    case LocalDecl(x) => if x in Declared(pre) then [MultipleDeclaration(x)] else []
    case Expr(Some(x)) => if x !in Declared(pre) then [UndeclaredVariable(x)] else []
    case _ => []
  }

  /** Every report, in the order of the events that caused them. */
  function Reports(evs: seq<Event>): seq<Diagnostic> {
    if |evs| == 0 then []
    else Reports(evs[..|evs| - 1]) + ReportFor(evs[..|evs| - 1], evs[|evs| - 1])
  }

  lemma DeclaredInSnoc(evs: seq<Event>, ev: Event)
    ensures DeclaredIn(evs + [ev])
            == DeclaredIn(evs) + (if ev.Param? || ev.LocalDecl? then {ev.name} else {})
  {
    var s := evs + [ev];
    forall x | x in DeclaredIn(s)
      ensures x in DeclaredIn(evs) + (if ev.Param? || ev.LocalDecl? then {ev.name} else {})
    {
      var i :| 0 <= i < |s| && (s[i].Param? || s[i].LocalDecl?) && s[i].name == x;
      if i < |evs| {
        assert evs[i] == s[i];
      }
    }
    forall x | x in DeclaredIn(evs)
      ensures x in DeclaredIn(s)
    {
      var i :| 0 <= i < |evs| && (evs[i].Param? || evs[i].LocalDecl?) && evs[i].name == x;
      assert s[i] == evs[i];
    }
    if ev.Param? || ev.LocalDecl? {
      assert s[|evs|] == ev;
    }
  }

  /** How the declared names change with one more event. */
  lemma DeclaredSnoc(evs: seq<Event>, ev: Event)
    ensures Declared(evs + [ev])
            == if ev == FuncEnter then {}
               else Declared(evs) + (if ev.Param? || ev.LocalDecl? then {ev.name} else {})
  {
    var s := evs + [ev];
    assert s[..|s| - 1] == evs;
    if ev != FuncEnter {
      DeclaredInSnoc(Scope(evs), ev);
    }
  }

  lemma CrashesSnoc(evs: seq<Event>, ev: Event)
    ensures Crashes(evs + [ev]) <==> Crashes(evs) || (UsesTable(ev) && FuncEnter !in evs)
  {
    var s := evs + [ev];
    assert s[..|evs|] == evs;
    if Crashes(evs) {
      var i :| 0 <= i < |evs| && UsesTable(evs[i]) && FuncEnter !in evs[..i];
      assert s[i] == evs[i] && s[..i] == evs[..i];
    }
    if Crashes(s) {
      var i :| 0 <= i < |s| && UsesTable(s[i]) && FuncEnter !in s[..i];
      if i < |evs| {
        assert s[i] == evs[i] && s[..i] == evs[..i];
      }
    }
  }

  /** The declarative account of the state after `evs`: the walk throws
      exactly when a table callback precedes every function entry;
      otherwise it holds a table exactly once a function has been entered,
      that table is the set of names declared since the last entry, the
      diagnostics are the reports in event order, and `hasError` records
      whether any error node was visited. */
  predicate Agrees(evs: seq<Event>, r: Option<Walker>) {
    && (r.None? <==> Crashes(evs))
    && (r.Some? ==>
          && (r.value.table.Some? <==> FuncEnter in evs)
          && (r.value.table.Some? ==> r.value.table.value == Declared(evs))
          && r.value.diagnostics == Reports(evs)
          && (r.value.hasError <==> ErrorNode in evs))
  }

  /** The fold agrees with the declarative account. */
  lemma {:induction false} WalkMatchesDeclarative(evs: seq<Event>)
    ensures Walk(evs).None? <==> Crashes(evs)
    ensures Walk(evs).Some? ==>
              var w := Walk(evs).value;
              && (w.table.Some? <==> FuncEnter in evs)
              && (w.table.Some? ==> w.table.value == Declared(evs))
              && w.diagnostics == Reports(evs)
              && (w.hasError <==> ErrorNode in evs)
    decreases |evs|
  {
    if |evs| != 0 {
      var pre := evs[..|evs| - 1];
      var ev := evs[|evs| - 1];
      assert evs == pre + [ev];
      WalkMatchesDeclarative(pre);
      StepAgrees(pre, ev, Walk(pre));
    }
  }

  /** One more event keeps the fold and the account in step. */
  lemma StepAgrees(pre: seq<Event>, ev: Event, r: Option<Walker>)
    requires Agrees(pre, r)
    ensures Agrees(pre + [ev], if r.None? then None else Step(r.value, ev))
  {
    CrashesSnoc(pre, ev);
    if r.Some? {
      LiveStepAgrees(pre, ev, r.value);
    }
  }

  lemma LiveStepAgrees(pre: seq<Event>, ev: Event, w: Walker)
    requires Agrees(pre, Some(w))
    ensures Agrees(pre + [ev], Step(w, ev))
  {
    CrashesSnoc(pre, ev);
    LiveTable(pre, ev, w);
    LiveReports(pre, ev, w);
    InSnoc(pre, ev, ErrorNode);
  }

  /** The table after one more event is the set of names in scope. */
  lemma LiveTable(pre: seq<Event>, ev: Event, w: Walker)
    requires Agrees(pre, Some(w))
    ensures var r := Step(w, ev);
            r.Some? ==> (r.value.table.Some? <==> FuncEnter in pre + [ev])
                        && (r.value.table.Some? ==> r.value.table.value == Declared(pre + [ev]))
  {
    DeclaredSnoc(pre, ev);
    InSnoc(pre, ev, FuncEnter);
  }

  /** The diagnostics after one more event are the reports so far. */
  lemma LiveReports(pre: seq<Event>, ev: Event, w: Walker)
    requires Agrees(pre, Some(w))
    ensures var r := Step(w, ev);
            r.Some? ==> r.value.diagnostics == Reports(pre + [ev])
  {
    ReportsSnoc(pre, ev);
  }

  lemma ReportsSnoc(pre: seq<Event>, ev: Event)
    ensures Reports(pre + [ev]) == Reports(pre) + ReportFor(pre, ev)
  {
    assert (pre + [ev])[..|pre|] == pre;
  }

  lemma InSnoc<T>(s: seq<T>, x: T, y: T)
    ensures y in s + [x] <==> y in s || y == x
  {
  }

  // ---------------------------------------------------------------------
  // Consequences

  /** A crash before the end of a prefix is a crash of the whole walk. */
  lemma CrashesPrefix(evs: seq<Event>, k: nat)
    requires k <= |evs| && Crashes(evs[..k])
    ensures Crashes(evs)
  {
    var i :| 0 <= i < k && UsesTable(evs[..k][i]) && FuncEnter !in evs[..k][..i];
    assert evs[..k][..i] == evs[..i];
  }

  lemma SnocAssoc<T>(a: seq<T>, b: seq<T>, x: T)
    ensures a + (b + [x]) == (a + b) + [x]
  {
  }

  /** Within one function the table only grows: no event but a function
      entry removes a name. */
  lemma {:induction false} DeclaredGrows(pre: seq<Event>, more: seq<Event>)
    requires FuncEnter !in more
    ensures Declared(pre) <= Declared(pre + more)
    decreases |more|
  {
    if |more| == 0 {
      assert pre + more == pre;
    } else {
      var front := more[..|more| - 1];
      var ev := more[|more| - 1];
      assert more == front + [ev];
      assert FuncEnter !in front;
      SnocAssoc(pre, front, ev);
      DeclaredGrows(pre, front);
      DeclaredSnoc(pre + front, ev);
    }
  }

  /** After a function entry, the names in scope are exactly those that
      function's own events declare, whatever came before it. */
  lemma {:induction false} NewFunctionForgetsNames(a: seq<Event>, b: seq<Event>)
    requires FuncEnter !in b
    ensures Declared(a + [FuncEnter] + b) == DeclaredIn(b)
    decreases |b|
  {
    if |b| == 0 {
      assert a + [FuncEnter] + b == a + [FuncEnter];
      DeclaredSnoc(a, FuncEnter);
    } else {
      var front := b[..|b| - 1];
      var ev := b[|b| - 1];
      assert b == front + [ev];
      assert FuncEnter !in front;
      NewFunctionForgetsNames(a, front);
      assert a + [FuncEnter] + b == (a + [FuncEnter] + front) + [ev];
      DeclaredSnoc(a + [FuncEnter] + front, ev);
      DeclaredInSnoc(front, ev);
    }
  }

  /** The same local name declared once in each of two functions is never
      a duplicate: the second declaration finds a fresh table. */
  lemma SameLocalInTwoFunctions(a: seq<Event>, x: string, b: seq<Event>)
    requires FuncEnter !in b && x !in DeclaredIn(b)
    ensures ReportFor(a + [FuncEnter] + b, LocalDecl(x)) == []
  {
    NewFunctionForgetsNames(a, b);
    assert x !in Declared(a + [FuncEnter] + b);
  }

  /** An error node, once seen, leaves `hasError` set for the rest of the
      walk. */
  lemma {:induction false} ErrorIsSticky(pre: seq<Event>, more: seq<Event>)
    requires Walk(pre).Some? && Walk(pre).value.hasError && Walk(pre + more).Some?
    ensures Walk(pre + more).value.hasError
    decreases |more|
  {
    if |more| != 0 {
      var front := more[..|more| - 1];
      assert (pre + more)[..|pre + more| - 1] == pre + front;
      ErrorIsSticky(pre, front);
    } else {
      assert pre + more == pre;
    }
  }

  /** The listener as the Java object runs it: mutable fields updated
      callback by callback, stopping at the first null dereference. */
  method Listen(events: seq<Event>) returns (crashed: bool, table: set<string>,
                                             diagnostics: seq<Diagnostic>, hasError: bool)
    ensures crashed <==> Crashes(events)
    ensures !crashed ==> diagnostics == Reports(events) && (hasError <==> ErrorNode in events)
    ensures !crashed && FuncEnter in events ==> table == Declared(events)
  {
    var entered := false;
    table, diagnostics, hasError, crashed := {}, [], false, false;
    var i := 0;
    while i < |events|
      invariant 0 <= i <= |events|
      invariant Walk(events[..i]) == Some(Walker(if entered then Some(table) else None, diagnostics, hasError))
    {
      assert events[..i + 1][..i] == events[..i];
      match events[i] {
        case FuncEnter =>
          entered, table := true, {};
        case Param(x) =>
          if !entered {
            crashed := true;
            break;
          }
          table := table + {x};
        case LocalDecl(x) =>
          if !entered {
            crashed := true;
            break;
          }
          if x in table {
            diagnostics := diagnostics + [MultipleDeclaration(x)];
          } else {
            table := table + {x};
          }
        case Expr(ref) =>
          if ref.Some? {
            if !entered {
              crashed := true;
              break;
            }
            if ref.value !in table {
              diagnostics := diagnostics + [UndeclaredVariable(ref.value)];
            }
          }
        case ErrorNode =>
          hasError := true;
      }
      i := i + 1;
    }
    if crashed {
      WalkMatchesDeclarative(events[..i + 1]);
      CrashesPrefix(events, i + 1);
    } else {
      assert events[..i] == events;
      WalkMatchesDeclarative(events);
    }
  }

  // ---------------------------------------------------------------------
  // Messages

  const MultiplePrefix := "Multiple declaration of variable : "
  const UndeclaredPrefix := "Undeclared Variable "

  /** Reads a printed diagnostic back. */
  function ParseMessage(s: string): Option<Diagnostic> {
    match StripPrefix(MultiplePrefix, s)
    case Some(t) =>
      (match StripSuffix(t, "\n")
       case Some(name) => Some(MultipleDeclaration(name))
       case None => None)
    case None =>
      match StripPrefix(UndeclaredPrefix, s)
      case Some(t) =>
        (match StripSuffix(t, "\n")
         case Some(name) => Some(UndeclaredVariable(name))
         case None => None)
      case None => None
  }

  /** Every diagnostic can be read back from its message, so two different
      diagnostics never print the same text. */
  lemma ParseMessageOfMessage(dg: Diagnostic)
    ensures ParseMessage(Message(dg)) == Some(dg)
  {
    match dg
    case MultipleDeclaration(name) =>
      assert Message(dg) == MultiplePrefix + (name + "\n");
      StripPrefixOf(MultiplePrefix, name + "\n");
      StripSuffixOf(name, "\n");
    case UndeclaredVariable(name) =>
      assert Message(dg) == UndeclaredPrefix + (name + "\n");
      assert Message(dg)[0] != MultiplePrefix[0];
      StripPrefixOf(UndeclaredPrefix, name + "\n");
      StripSuffixOf(name, "\n");
  }

  lemma MessageInjective(a: Diagnostic, b: Diagnostic)
    ensures Message(a) == Message(b) <==> a == b
  {
    ParseMessageOfMessage(a);
    ParseMessageOfMessage(b);
  }
}

=== FILE: wrappers.dfy ===
/** The present/absent wrapper used for every optional field of the AST (a
    call's argument, a return's expression, an if's else-branch before the
    constructor fills it in) and for decoders that may reject their input. */
module Wrappers {

  datatype Option<+T> = None | Some(value: T) {

    /** An absent value is the failure case, so `:-` stops at the first one. */
    predicate IsFailure() {
      None?
    }

    function PropagateFailure<U>(): Option<U>
      requires None?
    {
      None
    }

    function Extract(): T
      requires Some?
    {
      value
    }

    /** The wrapped value when present, `default` when absent. */
    function GetOr(default: T): T {
      match this
      case Some(v) => v
      case None => default
    }
  }
}
